=== FILE: README.md ===
# desmospy in Dafny

desmospy lets Python code describe plots for the Desmos graphing calculator.
A `Calculator` hands out `Statement` objects for free variables. Python
operators on Statements build engine (sympy) terms, comparisons (`LessThan`,
`LessEqual`, `GreaterThan`, `GreaterEqual`) and equations (`Equality`).
Comparisons combine with `&`, `|` and `^` into `Intersect`, `Union` and `XOR`
combinators. Each combinator is rendered as one sign condition on a *lump*:
`Min`, `Max` or the negated product of its components' lumps. Assigning an
attribute of the calculator records an equation. Points are captured as
placeholder symbols `v_{customNNNN}`, and their LaTeX is spliced back in when
the page is produced. `html` renders each recorded statement into its own
`calculator.setExpression` block, one block per statement.

The repository holds two versions of the module:

- the packaged `src/desmospy/__init__.py`;
- the older standalone `desmospy.py`.

Both are modelled. Their comparison and equation classes are identical, so
they are modelled once. Their Statement classes differ: the older one has no
`__neg__` and no `&`, `|`, `^`; the model's Statement operations are those of
the packaged file. The combinator classes differ in one branch of `add`, so
`Combinator` carries a `release` (`Current` or `Legacy`).
The two calculators are the classes `Desmospy.Calculator` and
`LegacyDesmospy.Calculator`. The logic they share lives in module `Session`.

The engine is not modelled; terms are an uninterpreted datatype
(`Terms.Term`). The model uses these stand-ins:

- `Terms.Eval` gives the arithmetic, `Min`/`Max`/product and sign
  constructs a meaning over the reals, so the lumps can be proved to mean
  what the comparisons mean.
- LaTeX printing, `str`, `simplify`, Python's `repr`, "is this an
  attribute of the engine module" and "is that attribute a value an
  equation accepts" are the fields of a `Session.Engine` value that the
  calculator holds.
- Python exceptions are `Errors.Err(AttributeError)` and
  `Errors.Err(ValueError)`.
- An attribute that a Python object has not yet been given is `None`.
- Insertion-ordered dictionaries are sequences of entries.
- Objects that the source mutates in place are classes with `modifies`
  clauses: combinators, whose `components` and `strict` change, and the
  calculators.

## Model

| member | source | states |
|---|---|---|
| Terms.EvalLists | src/desmospy/__init__.py:387-406 | `Min`, `Max` and the product of a list of terms evaluate to the least, greatest and product of the terms' values |
| Terms.LeastAboveZero | src/desmospy/__init__.py:387-392 | the least of several values is above zero (strictly or not) exactly when every value is |
| Terms.GreatestAboveZero | src/desmospy/__init__.py:394-399 | the greatest of several values is above zero exactly when some value is |
| Statements.Symbol | src/desmospy/__init__.py:153-156 | `Statement(name)` is named `name` and its term is the symbol `name`, evaluating to that symbol's value |
| Statements.FromValue | src/desmospy/__init__.py:158-164 | a Statement is returned unchanged; any other value is wrapped in an unnamed Statement with the same term |
| Statements.Ref | src/desmospy/__init__.py:166-170 | a Statement contributes its term; any other value is passed through as itself |
| Statements.Operate | src/desmospy/__init__.py:195-243 | the arithmetic operators and their reflected forms build a new, unnamed Statement |
| Statements.OperateEvaluates | src/desmospy/__init__.py:195-243 | the term built by `+ - * /` evaluates to that operation on the operands' values, with the reflected forms putting the other operand first |
| Statements.SumThenDifference | src/desmospy/__init__.py:195-213 | `(a + b) - b` evaluates to the value of `a` |
| Statements.Negate | src/desmospy/__init__.py:190-193 | `-s` is a new unnamed Statement evaluating to the negated value |
| Statements.AbsOf | src/desmospy/__init__.py:134-137 | `Calculator.abs` (also desmospy.py lines 80-83) yields an unnamed Statement whose value is non-negative and is plus or minus the operand's value |
| Relations.Compare | src/desmospy/__init__.py:175-185 | `s < o`, `s <= o`, `s > o` and `s >= o` build the comparison that holds exactly when the values are so ordered |
| Relations.MakeComparison | src/desmospy/__init__.py:263-269 | an Inequality keeps its relation and holds exactly when the unwrapped operands' values are so ordered |
| Relations.Strict | src/desmospy/__init__.py:295-341 | `strict` is set exactly for the relations that are false on equal operands (LessThan, GreaterThan) |
| Relations.Lump | src/desmospy/__init__.py:304-349 | the lump of `lhs < rhs` and `lhs <= rhs` is `rhs - lhs`, that of `lhs > rhs` and `lhs >= rhs` is `lhs - rhs`; it is above zero, strictly for a strict relation, exactly when the comparison holds |
| Relations.ZeroCondition | src/desmospy/__init__.py:381-383 | `Gt(lump, 0)` for a strict combinator and `Ge(lump, 0)` otherwise: a comparison of the term with zero that holds exactly when the term's value is above zero, strictly when strict |
| Relations.MakeEquality | src/desmospy/__init__.py:351-357 | an Equality of unwrapped operands holds exactly when their values agree |
| Relations.EqualTo | src/desmospy/__init__.py:172-173 | `s == o` builds the equation with the Statement's term on the left and the other's on the right, holding exactly when their values agree |
| Relations.Invert | src/desmospy/__init__.py:295-349 | `~` keeps both operands and flips strictness |
| Relations.InvertPairs | src/desmospy/__init__.py:295-349 | `~` pairs LessThan with GreaterEqual and LessEqual with GreaterThan, in both directions |
| Relations.InvertInvolutive | src/desmospy/__init__.py:295-349 | inverting twice gives back the same comparison |
| Relations.InvertNegates | src/desmospy/__init__.py:295-349 | the inverted comparison holds exactly when the original does not |
| Relations.LumpSignMatches | src/desmospy/__init__.py:304-349 | a comparison's lump is positive (strict classes) or non-negative (the others) exactly when the comparison holds |
| Relations.DocumentedLumpConditionFails | src/desmospy/__init__.py:304-321 | the sign conditions written in the `lump` doc comments are wrong for `0 < 0` and `0 <= 0` |
| Combinators.Combinator.constructor | src/desmospy/__init__.py:362-364 | a new combinator has no components and no `strict` attribute |
| Combinators.LumpOf | src/desmospy/__init__.py:387-406 | the Intersect lump evaluates to the least component value, the Union lump to the greatest, the XOR lump to the negated product |
| Combinators.Combinator.Add | src/desmospy/__init__.py:371-380 | `add` fails with AttributeError exactly when the first component has no `strict` or the component has no lump. On success it appends the other combinator's components (same class), the bare term (a Statement, this file only; desmospy.py lines 297-304 have no such branch) or the lump, latches `strict` from the first component and returns the same object. The invariant "strict is set iff there are components" is kept |
| Combinators.Combinator.Compose | src/desmospy/__init__.py:362-406 | the operator of the combinator's own class adds to it in place, with `add`'s failure condition, `strict` latch and unchanged state on AttributeError; any other operator builds a fresh combinator of that class seeded with this one's lump and `strict`, and leaves this one unchanged |
| Combinators.ComposeComparison | src/desmospy/__init__.py:274-289 | `c & o`, `c \| o`, `c ^ o` build a fresh combinator with `c`'s strictness whose components are `c`'s lump then `o`'s contribution; it fails exactly when `o` has no contribution |
| Combinators.ComposeReflected | src/desmospy/__init__.py:276-293 | the reflected operators accept only `None` on the left (ValueError otherwise) and then hold the comparison's lump alone |
| Combinators.NonNegative | src/desmospy/__init__.py:245-258 | a Statement in a boolean context is exactly `GreaterEqual(s.expr, 0)`: non-strict, and it holds exactly when its value is non-negative |
| Combinators.ComposeStatement | src/desmospy/__init__.py:245-257 | `s & o`, `s \| o`, `s ^ o` compose `s >= 0` with `o` into a fresh, valid combinator of this file's class: non-strict, with `s`'s lump first; AttributeError exactly when `o` has no contribution |
| Combinators.ComposeStatementReflected | src/desmospy/__init__.py:247-258 | the reflected forms accept only `None` on the left and then give a fresh, valid, non-strict combinator of this file's class holding the lump of `s >= 0` alone |
| Combinators.IntersectLumpMeaning | src/desmospy/__init__.py:387-392 | an Intersect lump is above zero exactly when every component is |
| Combinators.UnionLumpMeaning | src/desmospy/__init__.py:394-399 | a Union lump is above zero exactly when some component is |
| Combinators.XorLumpMeaning | src/desmospy/__init__.py:401-406 | for two non-zero components, the XOR lump is above zero exactly when one of them is positive and the other is not |
| Combinators.XorOfThreeDiverges | src/desmospy/__init__.py:401-406 | with three components the negated product is no exclusive or: three true components give a negative lump |
| Combinators.IntersectOfComparisons | src/desmospy/__init__.py:365-392 | for an Intersect of comparisons of one strictness, the condition `str` renders (`Gt`/`Ge` of the `Min` of the lumps against 0, before `simplify`) holds exactly when all of the comparisons hold |
| Combinators.UnionOfComparisons | src/desmospy/__init__.py:367-399 | for a Union of comparisons of one strictness, the condition `str` renders (`Gt`/`Ge` of the `Max` of the lumps against 0, before `simplify`) holds exactly when one of the comparisons holds |
| Combinators.MixedStrictnessDiverges | src/desmospy/__init__.py:371-385 | with mixed strictness the first component's strictness governs: `(x > 0) & (y >= 0)` renders false at x = 1, y = 0 |
| Combinators.FlatteningLaw | src/desmospy/__init__.py:365-392 | `(x & y) & z`, `x & (y & z)` and three `add` calls give the same flat component list |
| Combinators.FirstComponentStrictness | src/desmospy/__init__.py:371-373 | a combinator built by successive `add`s keeps the strictness of its first component |
| Text.Digits | src/desmospy/__init__.py:419-423 | the id written into a block is the decimal form of the index, without leading zeros |
| Text.DigitsRoundTrip | src/desmospy/__init__.py:419-423 | reading the decimal form back gives the index |
| Text.Counter | src/desmospy/__init__.py:147 | `%04d` yields digits whose value is the number, exactly four of them when the number has at most four digits and the number's own digits otherwise |
| Text.TokenRoundTrip | src/desmospy/__init__.py:147 | the placeholder token `Token(n)` is `v_{custom` + `%04d` of n + `}`, and the number can be read back from it |
| Text.TokenInjective | src/desmospy/__init__.py:147 | two placeholder tokens are equal exactly when their numbers are |
| Text.ReplaceAbsent | src/desmospy/__init__.py:57-58 | `str.replace` of a non-empty key that does not occur changes nothing |
| Text.Replace | src/desmospy/__init__.py:58 | replacing a key by itself changes nothing, and a replacement of the key's own length keeps the text's length |
| Text.EscapeAppend | src/desmospy/__init__.py:145 | doubling backslashes distributes over concatenation |
| Text.EscapeJoin | src/desmospy/__init__.py:145-146 | joining escaped texts with a backslash-free separator is escaping the joined texts |
| Text.ReplaceLeading | src/desmospy/__init__.py:57-58 | a key at the front of the text is replaced there and scanning continues after it |
| Text.EscapeRoundTrip | src/desmospy/__init__.py:145 | `Escape`, the `replace('\\', r'\\')` of the coordinates (and, at line 37, of the pi and e LaTeX), doubles every backslash and can be undone, so the escaped text determines the LaTeX |
| Text.JoinShape | src/desmospy/__init__.py:56 | `str.join` (here and at line 146) of no parts is empty, of one part is that part, and of more parts is the join of all but the last, the separator and the last part; the first part is a prefix |
| Text.SubstituteNeutral | src/desmospy/__init__.py:57-58 | the replacement loop changes nothing when every key is replaced by itself, and keeps the length when every replacement has its key's length |
| Text.Store | src/desmospy/__init__.py:148 | dictionary assignment grows the registry by one entry exactly when the key is new |
| Text.StoreFresh | src/desmospy/__init__.py:147-148 | assigning a new key appends one entry at the end of the insertion order |
| Text.SubstituteAppend | src/desmospy/__init__.py:57-58 | the replacement loop applies a later entry after every earlier one |
| Text.LatestFirstAppend | src/desmospy/__init__.py:139-149 | in the latest-first order, an appended entry's text passes through every earlier entry (the corrected order of the second finding) |
| Text.BlockSlots | src/desmospy/__init__.py:419-423 | a `latex_fmt` block is the fixed `calculator.setExpression({` head, the expression, the id's decimal digits and the fixed tail, at those positions |
| Text.PageSlots | src/desmospy/__init__.py:408-417 | an `html_fmt` page holds the URL, the options and the expressions at their fixed slots of the page template |
| Text.Blocks | src/desmospy/__init__.py:55 | block i is the `latex_fmt` text of statement i with id i |
| Text.ScriptAppend | src/desmospy/__init__.py:55-56 | one more statement appends exactly one block, after a newline, with the next id |
| Session.Lookup | src/desmospy/__init__.py:112-121 | `__getattr__` keeps every cached entry, adds at most the looked-up name and caches what it returns; an unseen engine attribute is returned as the engine's own object and not cached, and only an engine attribute is returned uncached; an unseen name that is no engine attribute becomes the Statement bound to that name |
| Session.LookupStable | src/desmospy/__init__.py:112-121 | looking a name up twice yields the same object and leaves the cache as the first lookup did |
| Session.Assignment | src/desmospy/__init__.py:123-127 | an underscore name records nothing; a public name fails with ValueError exactly when the looked-up object is a declared function's wrapper or an engine attribute that is no engine value, and that lookup changed no entry; otherwise it records one equation between the looked-up object and the value's term, with the cache of that lookup |
| Session.Internal | src/desmospy/__init__.py:124 | `name[:1] == '_'` holds exactly when the name starts with an underscore |
| Session.Unassignable | src/desmospy/__init__.py:123-127 | assigning to a looked-up Statement or raw value is accepted, to a declared function's wrapper refused, and to an engine attribute refused exactly when it is no engine value |
| Session.LookupAfterLookups | src/desmospy/__init__.py:112-121 | after earlier lookups a name resolves to the object it had before them, and the cache only gains Statements bound to their own names |
| Session.Equations | src/desmospy/__init__.py:94-97 | the equations of a run of assignments: one per public name |
| Session.AssignmentsRecord | src/desmospy/__init__.py:94-97 | a run of assignments fails exactly when some public name is refused; without a failure it records, in order, one equation per public name with that name's object in the starting cache; with one, it records those of the names before the first refused name and stops; the cache only gains bound Statements |
| Session.AssignmentsStep | src/desmospy/__init__.py:96-97 | a run that has not failed is extended by exactly the next name's assignment |
| Session.AssignmentsStop | src/desmospy/__init__.py:96-97 | once a prefix of the run has failed, the names after it add nothing |
| Session.StatementText | src/desmospy/__init__.py:381-385 | `str` of a statement fails with AttributeError exactly for a combinator that has no `strict` yet; otherwise a combinator is the LaTeX of `simplify` of its `ZeroCondition` (lump > 0 when strict, >= 0 otherwise), a comparison or equation the LaTeX of its relation, a Statement the LaTeX of its term and any other value the engine's `str` |
| Session.Quote | src/desmospy/__init__.py:55 | the text i put in block i is the `repr` of statement i's text |
| Session.Texts | src/desmospy/__init__.py:55 | the statement texts fail with AttributeError exactly when some statement cannot be rendered; otherwise text i is statement i's text |
| Session.Page | src/desmospy/__init__.py:53-58 | the page fails with AttributeError exactly when some statement cannot be rendered; otherwise it is the script of the statements' texts with the substitutions applied |
| Session.Render | src/desmospy/__init__.py:53-58 | the rendering loop yields exactly the joined blocks with every substitution applied in insertion order, or the rendering error |
| Session.PageAppend | src/desmospy/__init__.py:53-58 | setting one more renderable statement adds exactly one block, with the next id, before the substitutions |
| Session.Document | src/desmospy/__init__.py:53-59 | a rendered script gives exactly `html_fmt(url, script, options)`, and the page fails exactly when rendering fails |
| Session.PointText | src/desmospy/__init__.py:145-146 | a captured point is exactly "(" + the coordinates' LaTeX joined by ", " with every backslash doubled + ")"; undoing the escaping inside gives the coordinates' LaTeX joined by ", ", for any number of coordinates |
| Session.NextTokenFresh | src/desmospy/__init__.py:147-148 | numbering by the registry's size never reuses a registered token |
| Session.CaptureAppends | src/desmospy/__init__.py:147-148 | capturing appends one fresh entry and keeps the registry numbered by position |
| Session.UrlFromKwargs | src/desmospy/__init__.py:44-51 | an explicit non-empty `url` is used as is and removed; otherwise `url`, `url_fmt`, `rev` and `key` are removed and the URL is formatted from them or the defaults; no other option changes |
| Desmospy.SeedCache | src/desmospy/__init__.py:32-37 | x, y, r and theta are bound to the engine symbols of their own names; pi and e to two distinct placeholder symbols whose names are neither bound names nor point tokens |
| Desmospy.Customs | src/desmospy/__init__.py:33-37 | the registry starts with the pi and e placeholders, in that order, each mapped to the LaTeX of its constant with every backslash doubled, and neither collides with a point token |
| Desmospy.Coerce | src/desmospy/__init__.py:129-132 | `set` records a bare Statement as exactly `GreaterEqual(s.expr, 0)`, the non-strict comparison that holds exactly when its value is non-negative, and anything else unchanged |
| Desmospy.Stem | src/desmospy/__init__.py:88 | the stem is the longest prefix of the name without an underscore |
| Desmospy.TargetName | src/desmospy/__init__.py:87-89 | the target name has a stem of at most one character; it equals the name exactly when the name's stem is that short, and is `f_` + name otherwise |
| Desmospy.Arguments | src/desmospy/__init__.py:92 | the body is called with one bound Statement per parameter, in order |
| Desmospy.CallWrapper | src/desmospy/__init__.py:74-78 | the wrapper applies the target function to the `str` of each argument's term and returns an unnamed Statement |
| Desmospy.CallSeesTextOnly | src/desmospy/__init__.py:74-78 | arguments with the same text give the same call |
| Desmospy.CallMatchesDefinition | src/desmospy/__init__.py:104-106 | calling the wrapper on the parameters' own Statements rebuilds the left-hand side of the recorded definition |
| Desmospy.BodyTerm | src/desmospy/__init__.py:100-102 | a comparison body contributes exactly its lump, whose sign encodes the comparison; a combinator its lump; a Statement its term; a raw value itself |
| Desmospy.Calculator.constructor | src/desmospy/__init__.py:10-38 | the size defaults to 1080 by 360; the URL and options come from `url_from_kwargs`; the seed cache is bound; no statements; the registry holds only the customs |
| Desmospy.Calculator.Clear | src/desmospy/__init__.py:40-42 | no statements, the registry reset to the customs, the cache kept |
| Desmospy.Calculator.Html | src/desmospy/__init__.py:53-59 | the page of the current statements and registry, or the rendering error |
| Desmospy.Calculator.Publish | src/desmospy/__init__.py:61-72 | `save`/`show` produce the page of the state before the call; only a successful page with `clear` set clears the calculator |
| Desmospy.Calculator.GetAttr | src/desmospy/__init__.py:112-121 | the handle and the new cache are those of the lookup, engine attributes included; nothing else changes |
| Desmospy.Calculator.Set | src/desmospy/__init__.py:129-132 | appends the coerced statement and changes nothing else |
| Desmospy.Calculator.SetAttr | src/desmospy/__init__.py:123-127 | fails with ValueError, changing nothing, exactly when the assignment is refused; otherwise appends the statements and installs the cache of the assignment; the registry is unchanged |
| Desmospy.Calculator.Point | src/desmospy/__init__.py:139-149 | returns the Statement of the next token, which was not registered; the registry gains exactly that entry with the point's text |
| Desmospy.Calculator.AssignAll | src/desmospy/__init__.py:94-97 | the defaults loop performs the assignments in order and stops at the first that raises: its statements, cache and ValueError are those of the run of assignments, and the registry is unchanged |
| Desmospy.Calculator.Function | src/desmospy/__init__.py:80-109 | a lambda is refused with ValueError and no change. Otherwise the defaulted parameters are assigned in order; then `target(leading parameters) = body` is recorded, the wrapper is bound under the chosen name and returned. A refused default assignment, or an equation body, ends in ValueError with what the assignments recorded so far |
| Desmospy.ChosenName | src/desmospy/__init__.py:83-84 | the wrapper's name is the given `name`, or the Python function's own `__name__` when none is given |
| Desmospy.PointOverPiKeepsPlaceholder | src/desmospy/__init__.py:139-149 | a point over `calc.pi` captured after `clear` renders as `(desmospyCustompi)`: the placeholder survives the replacement loop (second finding below) |
| Desmospy.PointOverPiRenderedLatestFirst | src/desmospy/__init__.py:139-149 | under the latest-first order the same point renders as pi's escaped LaTeX in parentheses, which unescapes to pi's LaTeX |
| Desmospy.FirstPointAfterClear | src/desmospy/__init__.py:147 | after `clear` the first point token is `v_{custom0002}`, since the two customs come first |
| LegacyDesmospy.SeedCache | desmospy.py:30 | x, y, r, theta, pi and e are each bound to the Statement of the same name |
| LegacyDesmospy.Calculator.constructor | desmospy.py:10-32 | width and height as given, 720 and 360 when left out; the URL and options come from `url_from_kwargs`; the seed cache; no statements and an empty registry |
| LegacyDesmospy.Calculator.Html | desmospy.py:43-49 | the page of the current statements and registry, or the rendering error |
| LegacyDesmospy.Calculator.Show | desmospy.py:55-61 | the page of the state before the call; only a successful page with `clear` set empties the statements and the registry |
| LegacyDesmospy.Calculator.GetAttr | desmospy.py:63-69 | the cached object, or a new Statement of that name, which is then cached; nothing else changes |
| LegacyDesmospy.Calculator.Set | desmospy.py:77-78 | appends the object as given |
| LegacyDesmospy.Calculator.SetAttr | desmospy.py:71-75 | the assignment is never refused, since every name resolves to a Statement; it appends the statements and installs the cache of the assignment, with no engine attributes |
| LegacyDesmospy.Calculator.Point | desmospy.py:85-95 | returns the Statement of the next token, which was not registered; the registry gains exactly that entry |
| LegacyDesmospy.FirstPoint | desmospy.py:93 | the first point token is `v_{custom0000}` |

## Left out

- The engine (sympy) is not modelled. Printing, `str`, `simplify` and `repr` are opaque functions of `Session.Engine`. `Eval` gives meaning only to arithmetic without powers, to non-zero division, to `Abs`, `Min`, `Max` and products. Anything else evaluates through an arbitrary valuation.
- The `**` operator is modelled structurally only; its value is left to the valuation.
- The `save` of desmospy.py (lines 51-53) only writes the page that `LegacyDesmospy.Calculator.Html` yields; it has no member of its own.
- Display and files are not modelled: the IPython frame, the base64 data URL and the file written by `save`. `Publish` and `LegacyDesmospy.Calculator.Show` return the page instead.
- Desmospy.Calculator.constructor, LegacyDesmospy.Calculator.constructor: the JSON encoding of the remaining options and Python's `%` formatting of the URL template are parameters (`dumps`, `format`). Keyword values are modelled as strings.
- Desmospy.Calculator.constructor: `size` is an optional pair; a falsy but present `size` such as an empty tuple is not modelled.
- Desmospy.Calculator.SetAttr, LegacyDesmospy.Calculator.SetAttr: the host attribute that an underscore name sets on the calculator is not modelled; only "no statement is recorded" is.
- Session.Assignment: whether an engine attribute is a value an equation accepts is a parameter (`Engine.isEngineValue`), not derived from the engine. A value on the right-hand side that the engine refuses (a Python function, say) cannot arise, since values are Statements or engine terms.
- Desmospy.Calculator.Function: the Python function is modelled by its name, its parameter names, its defaults and its result on the parameters' Statements. An Equality body is modelled as the engine refusing it with ValueError, which is how the engine treats an operand it cannot convert.
- Statement identity: Statements are never mutated after they are returned, so value equality stands in for object identity in the cache.
- Reflected operators whose left operand is an engine term or number are not modelled. For combinators the left operand is modelled only as `None` or "something else".
- `Statement.__req__` is not modelled: Python never calls it as an operator.
- `Statement.__str__` of a bare Statement is modelled through `Session.StatementText`.
- The older file has no `__neg__` and no `&`, `|`, `^` on Statements. `Statements.Negate` and the `Combinators.ComposeStatement` operations model the packaged file; the model does not forbid them for the older one.
- The Python integer width is not an issue: the only integers are list lengths and indices.

## Findings

| source | as written | input that shows it | evidently intended | confidence | as-written member | corrected member |
|---|---|---|---|---|---|---|
| src/desmospy/__init__.py:306-320 | the `lump` doc comments say ">= zero" for LessThan and "> zero" for LessEqual, the reverse of the Greater classes (the same in desmospy.py lines 232-246) | `0 < 0` has lump 0, which is ">= zero" although the comparison is false; `0 <= 0` has lump 0, which is not "> zero" although it is true | "> zero" for the strict classes (LessThan, GreaterThan) and ">= zero" for the others, as the rendering in `Boolean.__str__` uses it | high, from the text; not executed | Relations.DocumentedLumpConditionFails | Relations.LumpSignMatches |
| src/desmospy/__init__.py:139-149 | `point` stores the LaTeX of its coordinates under a new token, and `html` (lines 57-58) replaces the keys in insertion order, so the pi and e placeholders are replaced before any point token; a point's text that mentions a placeholder keeps it (the same in desmospy.py lines 47-48 and 85-95 for any key registered before a point) | `calc.point(calc.pi)` right after `clear`, when the engine prints the placeholder symbol as `desmospyCustompi`: the token `v_{custom0002}` renders as `(desmospyCustompi)` | the point shows pi's LaTeX, as the `point` doc comment says; replacing the latest entry first does that | medium, depends on how the engine prints the placeholder symbol; not executed | Desmospy.PointOverPiKeepsPlaceholder | Desmospy.PointOverPiRenderedLatestFirst |

=== FILE: combinators.dfy ===
/**
 * The Boolean combinators Intersect, Union and XOR. A combinator is an object
 * whose `components` list grows in place and whose `strict` attribute is set
 * by the first `add`; chaining the same operator mutates and returns the same
 * object.
 */
module Combinators {
  import opened Errors
  import opened Terms
  import opened Statements
  import opened Relations

  /** The Boolean subclass. */
  datatype Kind = Intersect | Union | Xor

  /**
   * The source file a class comes from. `isinstance` never matches a class of
   * the other file, and only the current file's `add` accepts a bare Statement.
   */
  datatype Release = Current | Legacy

  /** Any object the DSL hands to `add`, `set` or `function`. */
  datatype Node =
    | Cmp(c: Comparison)
    | Eqn(e: Equality)
    | Comb(b: Combinator)
    | Bare(s: Statement)
    | Foreign(t: Term)  // a raw engine value

  /** The objects of the heap that a node's attributes live in. */
  function Frame(n: Node): set<object> {
    if n.Comb? then {n.b} else {}
  }

  /**
   * The `lump` properties: the least component value for Intersect, the
   * greatest for Union, the negated product for XOR.
   */
  function LumpOf(kind: Kind, components: seq<Term>): (r: Term)
    ensures kind == Intersect && components != [] ==> forall v :: Eval(r, v) == Least(Values(components, v))
    ensures kind == Union && components != [] ==> forall v :: Eval(r, v) == Greatest(Values(components, v))
    ensures kind == Xor ==> forall v :: Eval(r, v) == -Product(Values(components, v))
  {
    assert forall v ::
      && (components != [] ==> Eval(Min(components), v) == Least(Values(components, v)))
      && (components != [] ==> Eval(Max(components), v) == Greatest(Values(components, v)))
      && Eval(Prod(components), v) == Product(Values(components, v))
    by {
      forall v {
        EvalLists(components, v);
      }
    }
    match kind
    case Intersect => Min(components)
    case Union => Max(components)
    case Xor => Neg(Prod(components))
  }

  /** `component.strict`; `None` when the object has no such attribute. */
  function StrictOf(n: Node): Option<bool>
    reads Frame(n)
  {
    match n
    case Cmp(c) => Some(Strict(c))
    case Comb(b) => b.strict
    case _ => None
  }

  /**
   * What `add` appends to a combinator of class (`kind`, `release`): the
   * components of a combinator of the same class, the term of a bare Statement
   * (current file only), or the `lump` of anything else; `None` when that
   * attribute is missing.
   */
  function ContributionTo(kind: Kind, release: Release, n: Node): Option<seq<Term>>
    reads Frame(n)
  {
    match n
    case Comb(b) => if b.kind == kind && b.release == release then Some(b.components) else Some([b.Lump()])
    case Bare(s) => if release == Current then Some([s.expr]) else None
    case Cmp(c) => Some([Lump(c)])
    case _ => None
  }

  /** A combinator node keeps its object invariant. */
  ghost predicate NodeValid(n: Node)
    reads Frame(n)
  {
    n.Comb? ==> n.b.Valid()
  }

  class Combinator {
    const kind: Kind
    const release: Release
    var components: seq<Term>
    /** Unset (`None`) until the first successful `add`. */
    var strict: Option<bool>

    ghost predicate Valid()
      reads this
    {
      strict.Some? <==> components != []
    }

    constructor (kind: Kind, release: Release)
      ensures Valid()
      ensures this.kind == kind && this.release == release
      ensures components == [] && strict == None
    {
      this.kind := kind;
      this.release := release;
      components := [];
      strict := None;
    }

    function Lump(): Term
      reads this
    {
      LumpOf(kind, components)
    }

    /** `add` raises AttributeError: the first component lacks `strict`, or the component lacks a lump. */
    predicate AddFails(n: Node)
      reads this, Frame(n)
    {
      (components == [] && StrictOf(n).None?) || ContributionTo(kind, release, n).None?
    }

    /** `Boolean.add`. */
    method Add(n: Node) returns (r: Result<Combinator>)
      requires Valid() && NodeValid(n)
      modifies this
      ensures Valid()
      ensures r.Err? <==> old(AddFails(n))
      ensures r.Err? ==> r.error == AttributeError && components == old(components) && strict == old(strict)
      ensures r.Ok? ==> r.value == this
      ensures r.Ok? ==> components == old(components) + old(ContributionTo(kind, release, n)).value
      ensures r.Ok? ==> strict == if old(components) == [] then old(StrictOf(n)) else old(strict)
    {
      if components == [] {
        var s := StrictOf(n);
        if s.None? {
          return Err(AttributeError);
        }
        strict := s;
      }
      var more := ContributionTo(kind, release, n);
      if more.None? {
        return Err(AttributeError);
      }
      components := components + more.value;
      r := Ok(this);
    }

    /**
     * `&`, `|`, `^` on a combinator (`kind` names the operator): the operator
     * of the combinator's own class adds to it and returns it; any other builds
     * a fresh combinator whose first component is this one's lump.
     */
    method Compose(kind: Kind, other: Node) returns (r: Result<Combinator>)
      requires Valid() && NodeValid(other)
      modifies this
      ensures Valid()
      ensures r.Err? ==> r.error == AttributeError
      ensures kind == this.kind ==> (r.Err? <==> old(AddFails(other)))
      ensures kind == this.kind && r.Err? ==> components == old(components) && strict == old(strict)
      ensures kind == this.kind && r.Ok? ==>
        && r.value == this
        && components == old(components) + old(ContributionTo(kind, release, other)).value
        && strict == if old(components) == [] then old(StrictOf(other)) else old(strict)
      ensures kind != this.kind ==> components == old(components) && strict == old(strict)
      ensures kind != this.kind ==>
        (r.Err? <==> strict.None? || ContributionTo(kind, release, other).None?)
      ensures kind != this.kind && r.Ok? ==>
        && fresh(r.value) && r.value.Valid()
        && r.value.kind == kind && r.value.release == release
        && r.value.strict == strict
        && r.value.components == [Lump()] + ContributionTo(kind, release, other).value
    {
      if kind == this.kind {
        r := Add(other);
      } else {
        var c := new Combinator(kind, release);
        var first := c.Add(Comb(this));
        if first.Err? {
          return first;
        }
        r := c.Add(other);
      }
    }
  }

  /** `Inequality.__and__`, `__or__`, `__xor__`: a fresh combinator seeded with the comparison. */
  method ComposeComparison(release: Release, kind: Kind, c: Comparison, other: Node) returns (r: Result<Combinator>)
    requires NodeValid(other)
    ensures r.Err? <==> ContributionTo(kind, release, other).None?
    ensures r.Err? ==> r.error == AttributeError
    ensures r.Ok? ==>
      && fresh(r.value) && r.value.Valid()
      && r.value.kind == kind && r.value.release == release
      && r.value.strict == Some(Strict(c))
      && r.value.components == [Lump(c)] + ContributionTo(kind, release, other).value
  {
    var b := new Combinator(kind, release);
    var first := b.Add(Cmp(c));
    r := b.Add(other);
  }

  /**
   * `Inequality.__rand__`, `__ror__`, `__rxor__`: the comparison is the right
   * operand of `left`; only Python's `None` (here `None`) is accepted.
   */
  method ComposeReflected(release: Release, kind: Kind, c: Comparison, left: Option<Term>) returns (r: Result<Combinator>)
    ensures left.Some? ==> r == Err(ValueError)
    ensures left.None? ==>
      && r.Ok? && fresh(r.value) && r.value.Valid()
      && r.value.kind == kind && r.value.release == release
      && r.value.strict == Some(Strict(c)) && r.value.components == [Lump(c)]
  {
    if left.Some? {
      return Err(ValueError);
    }
    var b := new Combinator(kind, release);
    r := b.Add(Cmp(c));
  }

  /** The comparison a bare Statement stands for in a boolean context: `s >= 0`. */
  function NonNegative(s: Statement): (c: Comparison)
    ensures c == Comparison(GreaterEqual, s.expr, Num(0.0))
    ensures !Strict(c)
    ensures forall v :: Holds(c, v) <==> Eval(s.expr, v) >= 0.0
  {
    Compare(GreaterEqual, s, Raw(Num(0.0)))
  }

  /** `Statement.__and__`, `__or__`, `__xor__` (current file): `(s >= 0) op other`. */
  method ComposeStatement(kind: Kind, s: Statement, other: Node) returns (r: Result<Combinator>)
    requires NodeValid(other)
    ensures r.Err? <==> ContributionTo(kind, Current, other).None?
    ensures r.Err? ==> r.error == AttributeError
    ensures r.Ok? ==>
      && fresh(r.value) && r.value.Valid()
      && r.value.kind == kind && r.value.release == Current
      && r.value.strict == Some(false)
      && r.value.components == [Lump(NonNegative(s))] + ContributionTo(kind, Current, other).value
  {
    r := ComposeComparison(Current, kind, NonNegative(s), other);
  }

  /** `Statement.__rand__`, `__ror__`, `__rxor__` for a left operand that is not a DSL object. */
  method ComposeStatementReflected(kind: Kind, s: Statement, left: Option<Term>) returns (r: Result<Combinator>)
    ensures left.Some? ==> r == Err(ValueError)
    ensures left.None? ==>
      && r.Ok? && fresh(r.value) && r.value.Valid()
      && r.value.kind == kind && r.value.release == Current
      && r.value.strict == Some(false) && r.value.components == [Lump(NonNegative(s))]
  {
    r := ComposeReflected(Current, kind, NonNegative(s), left);
  }

  /** The lumps of a list of comparisons, in order. */
  function Lumps(cs: seq<Comparison>): (r: seq<Term>)
    ensures |r| == |cs| && forall i :: 0 <= i < |cs| ==> r[i] == Lump(cs[i])
  {
    seq(|cs|, i requires 0 <= i < |cs| => Lump(cs[i]))
  }

  /** An Intersect lump clears zero exactly when every component does. */
  lemma IntersectLumpMeaning(components: seq<Term>, strict: bool, v: Valuation)
    requires components != []
    ensures AboveZero(Eval(LumpOf(Intersect, components), v), strict)
        <==> forall i :: 0 <= i < |components| ==> AboveZero(Eval(components[i], v), strict)
  {
    EvalLists(components, v);
    LeastAboveZero(Values(components, v), strict);
  }

  /** A Union lump clears zero exactly when some component does. */
  lemma UnionLumpMeaning(components: seq<Term>, strict: bool, v: Valuation)
    requires components != []
    ensures AboveZero(Eval(LumpOf(Union, components), v), strict)
        <==> exists i :: 0 <= i < |components| && AboveZero(Eval(components[i], v), strict)
  {
    var xs := Values(components, v);
    EvalLists(components, v);
    GreatestAboveZero(xs, strict);
    if AboveZero(Greatest(xs), strict) {
      var i :| 0 <= i < |xs| && AboveZero(xs[i], strict);
      assert AboveZero(Eval(components[i], v), strict);
    }
  }

  /** For two margins that are never zero, the XOR lump clears zero exactly when one margin is positive and the other is not. */
  lemma XorLumpMeaning(a: Term, b: Term, strict: bool, v: Valuation)
    requires Eval(a, v) != 0.0 && Eval(b, v) != 0.0
    ensures AboveZero(Eval(LumpOf(Xor, [a, b]), v), strict) <==> ((Eval(a, v) > 0.0) != (Eval(b, v) > 0.0))
  {
    var x, y := Eval(a, v), Eval(b, v);
    EvalLists([a, b], v);
    assert Values([a, b], v) == [x, y];
    assert [x, y][1..] == [y] && [y][1..] == [];
    assert Product([y]) == y by { assert Product([y]) == y * Product([]); }
    assert Product([x, y]) == x * y by { assert Product([x, y]) == x * Product([y]); }
    assert Eval(Prod([a, b]), v) == x * y;
    assert Eval(LumpOf(Xor, [a, b]), v) == -(x * y);
    if x > 0.0 && y > 0.0 { assert x * y > 0.0; }
    if x < 0.0 && y < 0.0 { assert x * y > 0.0; }
    if x > 0.0 && y < 0.0 { assert x * y < 0.0; }
    if x < 0.0 && y > 0.0 { assert x * y < 0.0; }
  }

  /** With three true margins the XOR lump is negative although an odd number of them hold. */
  lemma XorOfThreeDiverges(v: Valuation)
    ensures var one := Num(1.0); Eval(LumpOf(Xor, [one, one, one]), v) == -1.0
  {
    var one := Num(1.0);
    EvalLists([one, one, one], v);
    assert Values([one, one, one], v) == [1.0, 1.0, 1.0];
    assert [1.0, 1.0, 1.0][1..] == [1.0, 1.0] && [1.0, 1.0][1..] == [1.0] && [1.0][1..] == [];
  }

  /** When all comparisons share one strictness, the Intersect of their lumps renders their conjunction. */
  lemma IntersectOfComparisons(cs: seq<Comparison>, v: Valuation)
    requires cs != []
    requires forall i :: 0 <= i < |cs| ==> Strict(cs[i]) == Strict(cs[0])
    ensures AboveZero(Eval(LumpOf(Intersect, Lumps(cs)), v), Strict(cs[0])) <==> forall i :: 0 <= i < |cs| ==> Holds(cs[i], v)
    ensures Holds(ZeroCondition(LumpOf(Intersect, Lumps(cs)), Strict(cs[0])), v) <==> forall i :: 0 <= i < |cs| ==> Holds(cs[i], v)
  {
    IntersectLumpMeaning(Lumps(cs), Strict(cs[0]), v);
    forall i | 0 <= i < |cs|
      ensures AboveZero(Eval(Lumps(cs)[i], v), Strict(cs[0])) <==> Holds(cs[i], v)
    {
      LumpSignMatches(cs[i], v);
    }
  }

  /** When all comparisons share one strictness, the Union of their lumps renders their disjunction. */
  lemma UnionOfComparisons(cs: seq<Comparison>, v: Valuation)
    requires cs != []
    requires forall i :: 0 <= i < |cs| ==> Strict(cs[i]) == Strict(cs[0])
    ensures AboveZero(Eval(LumpOf(Union, Lumps(cs)), v), Strict(cs[0])) <==> exists i :: 0 <= i < |cs| && Holds(cs[i], v)
    ensures Holds(ZeroCondition(LumpOf(Union, Lumps(cs)), Strict(cs[0])), v) <==> exists i :: 0 <= i < |cs| && Holds(cs[i], v)
  {
    UnionLumpMeaning(Lumps(cs), Strict(cs[0]), v);
    forall i | 0 <= i < |cs|
      ensures AboveZero(Eval(Lumps(cs)[i], v), Strict(cs[0])) <==> Holds(cs[i], v)
    {
      LumpSignMatches(cs[i], v);
    }
  }

  /**
   * The strictness of the first component governs the whole combinator:
   * `(x > 0) & (y >= 0)` renders `Min(x - 0, y - 0) > 0`, which is false at
   * x = 1, y = 0 where the conjunction holds.
   */
  lemma MixedStrictnessDiverges(v: Valuation)
    requires v.symbol("x") == 1.0 && v.symbol("y") == 0.0
    ensures var x, y, zero := Sym("x"), Sym("y"), Num(0.0);
            var cs := [Comparison(GreaterThan, x, zero), Comparison(GreaterEqual, y, zero)];
            && Holds(cs[0], v) && Holds(cs[1], v)
            && !AboveZero(Eval(LumpOf(Intersect, Lumps(cs)), v), Strict(cs[0]))
  {
    var x, y, zero := Sym("x"), Sym("y"), Num(0.0);
    var cs := [Comparison(GreaterThan, x, zero), Comparison(GreaterEqual, y, zero)];
    IntersectLumpMeaning(Lumps(cs), true, v);
    assert !AboveZero(Eval(Lumps(cs)[1], v), true);
  }

  /**
   * `(x & y) & z`, `x & (y & z)` and `Intersect().add(x).add(y).add(z)` give
   * the same flattened component list.
   */
  method FlatteningLaw(release: Release, x: Comparison, y: Comparison, z: Comparison)
    returns (left: seq<Term>, right: seq<Term>, flat: seq<Term>)
    ensures left == right == flat == [Lump(x), Lump(y), Lump(z)]
  {
    var xy := ComposeComparison(release, Intersect, x, Cmp(y));
    var xyz := xy.value.Compose(Intersect, Cmp(z));
    left := xyz.value.components;

    var yz := ComposeComparison(release, Intersect, y, Cmp(z));
    var xyz' := ComposeComparison(release, Intersect, x, Comb(yz.value));
    right := xyz'.value.components;

    var b := new Combinator(Intersect, release);
    var r := b.Add(Cmp(x));
    r := b.Add(Cmp(y));
    r := b.Add(Cmp(z));
    flat := b.components;
  }

  /** The strictness of a composition is that of its first component, whatever is added later. */
  method FirstComponentStrictness(release: Release, kind: Kind, first: Comparison, rest: seq<Comparison>)
    returns (strict: Option<bool>)
    ensures strict == Some(Strict(first))
  {
    var b := new Combinator(kind, release);
    var r := b.Add(Cmp(first));
    for i := 0 to |rest|
      invariant b.Valid() && b.strict == Some(Strict(first))
    {
      r := b.Add(Cmp(rest[i]));
    }
    strict := b.strict;
  }
}

=== FILE: desmospy.dfy ===
/**
 * The Calculator of the packaged module (`src/desmospy/__init__.py`): pi and
 * e are bound to placeholder symbols whose LaTeX is restored at render time,
 * bare Statements are recorded as `s >= 0`, unknown names may resolve to
 * engine attributes, and Python functions can be declared as plotted functions.
 */
module Desmospy {
  import opened Errors
  import opened Terms
  import opened Statements
  import opened Relations
  import opened Combinators
  import opened Text
  import opened Session

  /** The placeholder symbols bound to pi and e: `'desmospyCustom' + var`. */
  const PiPlaceholder := "desmospyCustompi"
  const EPlaceholder := "desmospyCustome"

  /**
   * The symbols bound when a calculator is created: x, y, r and theta as plain
   * engine symbols, pi and e as the placeholder symbols `desmospyCustompi`
   * and `desmospyCustome`.
   */
  function SeedCache(): (r: map<string, Handle>)
    ensures r.Keys == {"x", "y", "r", "theta", "pi", "e"}
    ensures r["x"] == HRaw(Sym("x")) && r["y"] == HRaw(Sym("y"))
    ensures r["r"] == HRaw(Sym("r")) && r["theta"] == HRaw(Sym("theta"))
    ensures r["pi"].HRaw? && r["pi"].t.Sym? && r["e"].HRaw? && r["e"].t.Sym?
    ensures r["pi"].t.name != r["e"].t.name
    ensures r["pi"].t.name !in r.Keys && r["e"].t.name !in r.Keys
    ensures TokenNumber(r["pi"].t.name).None? && TokenNumber(r["e"].t.name).None?
  {
    map["x" := HRaw(Sym("x")), "y" := HRaw(Sym("y")), "r" := HRaw(Sym("r")), "theta" := HRaw(Sym("theta")),
        "pi" := HRaw(Sym(PiPlaceholder)), "e" := HRaw(Sym(EPlaceholder))]
  }

  /**
   * `_customs`: each placeholder of the seed cache, in insertion order, mapped
   * to the LaTeX of the constant it stands for with its backslashes doubled.
   */
  function Customs(engine: Engine): (r: seq<Substitution>)
    ensures |r| == 2
    ensures r[0].token == SeedCache()["pi"].t.name && r[1].token == SeedCache()["e"].t.name
    ensures r[0].text == Escape(engine.latex(Sym("pi"))) && r[1].text == Escape(engine.latex(Sym("e")))
    ensures Unescape(r[0].text) == engine.latex(Sym("pi")) && Unescape(r[1].text) == engine.latex(Sym("e"))
    ensures Numbered(r, 2)
  {
    EscapeRoundTrip(engine.latex(Sym("pi")));
    EscapeRoundTrip(engine.latex(Sym("e")));
    [Substitution(PiPlaceholder, Escape(engine.latex(Sym("pi")))),
     Substitution(EPlaceholder, Escape(engine.latex(Sym("e"))))]
  }

  /** What `set` records: a bare Statement becomes the comparison `s >= 0`; anything else is kept. */
  function Coerce(n: Node): (r: Node)
    ensures !r.Bare?
    ensures n.Bare? ==> r.Cmp? && r.c == Comparison(GreaterEqual, n.s.expr, Num(0.0))
    ensures n.Bare? ==> r.Cmp? && !Strict(r.c) && forall v :: Holds(r.c, v) <==> Eval(n.s.expr, v) >= 0.0
    ensures !n.Bare? ==> r == n
  {
    if n.Bare? then Cmp(NonNegative(n.s)) else n
  }

  /** `name.split('_')[0]`: the longest prefix of a name without an underscore. */
  function Stem(name: string): (r: string)
    ensures r <= name && '_' !in r
    ensures |r| < |name| ==> name[|r|] == '_'
  {
    if name == [] || name[0] == '_' then [] else [name[0]] + Stem(name[1..])
  }

  /**
   * The name a declared function gets on the plotting surface: a name whose
   * stem is longer than one character is prefixed with `f_`, so that every
   * target reads as one letter with a subscript.
   */
  function TargetName(name: string): (r: string)
    ensures |Stem(r)| <= 1
    ensures r == name <==> |Stem(name)| <= 1
    ensures r != name ==> r == "f_" + name
  {
    if |Stem(name)| > 1 then
      assert Stem("f_" + name) == "f";
      "f_" + name
    else name
  }

  /** The name `function` registers under: the explicit name, else the function's own. */
  function ChosenName(fnName: string, name: Option<string>): (r: string)
    ensures name.Some? ==> r == name.value
    ensures name.None? ==> r == fnName
  {
    if name.Some? then name.value else fnName
  }

  /** The Statements a declared function's body is called with: one bound variable per parameter. */
  function Arguments(params: seq<string>): (r: seq<Statement>)
    ensures |r| == |params| && forall i :: 0 <= i < |params| ==> r[i] == Symbol(params[i])
  {
    seq(|params|, i requires 0 <= i < |params| => Symbol(params[i]))
  }

  /**
   * `func_indirect`: the wrapper calls the engine function `target` on the
   * `str` of each argument's term and wraps the application in a new Statement.
   */
  function CallWrapper(engine: Engine, target: string, args: seq<Value>): (r: Statement)
    ensures r.name == None && r.expr.Fn? && r.expr.name == target
    ensures |r.expr.texts| == |args|
    ensures forall i :: 0 <= i < |args| ==> r.expr.texts[i] == engine.str(Ref(args[i]))
  {
    Statement(None, Fn(target, seq(|args|, i requires 0 <= i < |args| => engine.str(Ref(args[i])))))
  }

  /** The wrapper sees its arguments only through their text: arguments with the same text give the same call. */
  lemma CallSeesTextOnly(engine: Engine, target: string, a: seq<Value>, b: seq<Value>)
    requires |a| == |b| && forall i :: 0 <= i < |a| ==> engine.str(Ref(a[i])) == engine.str(Ref(b[i]))
    ensures CallWrapper(engine, target, a) == CallWrapper(engine, target, b)
  {
    assert CallWrapper(engine, target, a).expr.texts == CallWrapper(engine, target, b).expr.texts;
  }

  /**
   * Calling the wrapper on the parameters' own Statements rebuilds the
   * left-hand side of the definition, when the text of each parameter symbol is its name.
   */
  lemma CallMatchesDefinition(engine: Engine, target: string, params: seq<string>)
    requires forall i :: 0 <= i < |params| ==> engine.str(Sym(params[i])) == params[i]
    ensures CallWrapper(engine, target, seq(|params|, i requires 0 <= i < |params| => Stmt(Symbol(params[i])))).expr
            == Fn(target, params)
  {
    var args := seq(|params|, i requires 0 <= i < |params| => Stmt(Symbol(params[i])));
    assert CallWrapper(engine, target, args).expr.texts == params;
  }

  /**
   * The right-hand side of a declared function: a comparison or combinator
   * contributes its lump, a Statement its term, a raw value itself.
   */
  function BodyTerm(body: Node): (r: Term)
    requires !body.Eqn?
    reads Frame(body)
    ensures body.Cmp? ==> r == Lump(body.c)
    ensures body.Cmp? ==> forall v :: AboveZero(Eval(r, v), Strict(body.c)) <==> Holds(body.c, v)
    ensures body.Comb? ==> r == body.b.Lump()
    ensures body.Bare? ==> r == body.s.expr
    ensures body.Foreign? ==> r == body.t
  {
    match body
    case Cmp(c) => 
      assert forall v :: AboveZero(Eval(Lump(c), v), Strict(c)) <==> Holds(c, v) by {
        forall v ensures AboveZero(Eval(Lump(c), v), Strict(c)) <==> Holds(c, v) {
          LumpSignMatches(c, v);
        }
      }
      Lump(c)
    case Comb(b) => b.Lump()
    case Bare(s) => s.expr
    case Foreign(t) => t
  }

  class Calculator {
    const engine: Engine
    const width: int
    const height: int
    const url: string
    /** The remaining keyword options as the plotting surface receives them. */
    const options: string
    var statements: seq<Node>
    /** `_substitutions`, in insertion order. */
    var substitutions: seq<Substitution>
    var cache: map<string, Handle>

    /**
     * The registry starts with the two custom entries, then holds the point
     * tokens numbered by position; the seed names stay bound.
     */
    ghost predicate Valid()
      reads this
    {
      && |substitutions| >= 2
      && substitutions[..2] == Customs(engine)
      && Numbered(substitutions, 2)
      && SeedCache().Keys <= cache.Keys
    }

    /**
     * `Calculator(size, **kwargs)`. `format` stands for Python's `%`
     * formatting of the URL template, `dumps` for the JSON encoding of the
     * remaining options.
     */
    constructor (engine: Engine, size: Option<(int, int)>, kwargs: map<string, string>,
                 format: (string, string, string) -> string, dumps: map<string, string> -> string)
      ensures Valid()
      ensures this.engine == engine
      ensures size.Some? ==> (width, height) == size.value
      ensures size.None? ==> width == 1080 && height == 360
      ensures url == UrlFromKwargs(kwargs, format).1 && options == dumps(UrlFromKwargs(kwargs, format).0)
      ensures cache == SeedCache() && statements == [] && substitutions == Customs(engine)
    {
      this.engine := engine;
      if size.Some? {
        width, height := size.value.0, size.value.1;
      } else {
        width, height := 1080, 360;
      }
      var (rest, u) := UrlFromKwargs(kwargs, format);
      url := u;
      options := dumps(rest);
      cache := SeedCache();
      statements := [];
      substitutions := Customs(engine);
    }

    /** `clear`: no statements, and only the custom substitutions; bound names are kept. */
    method Clear()
      requires Valid()
      modifies this
      ensures Valid()
      ensures statements == [] && substitutions == Customs(engine) && cache == old(cache)
    {
      statements := [];
      substitutions := Customs(engine);
    }

    /** `html`: the page for the current statements and substitutions, or the rendering error. */
    method Html() returns (r: Result<string>)
      ensures r == Document(url, options, Page(engine, statements, substitutions))
    {
      var page := Render(engine, statements, substitutions);
      r := Document(url, options, page);
    }

    /**
     * `save` and `show`: the page is produced first; only when that succeeds
     * and `clear` is set is the calculator cleared.
     */
    method Publish(clear: bool) returns (r: Result<string>)
      requires Valid()
      modifies this
      ensures Valid()
      ensures r == old(Document(url, options, Page(engine, statements, substitutions)))
      ensures r.Ok? && clear ==> statements == [] && substitutions == Customs(engine) && cache == old(cache)
      ensures !(r.Ok? && clear) ==>
        statements == old(statements) && substitutions == old(substitutions) && cache == old(cache)
    {
      // the rendered combinators are allocated, so the call leaves the page as it was
      assert forall o :: o in Objects(statements) ==> allocated(o);
      r := Html();
      if r.Ok? && clear {
        Clear();
      }
    }

    /** `__getattr__`: the cached object, an engine attribute, or a new bound Statement. */
    method GetAttr(name: string) returns (h: Handle)
      requires Valid()
      modifies this
      ensures Valid()
      ensures (h, cache) == Lookup(old(cache), name, engine.isEngineName)
      ensures statements == old(statements) && substitutions == old(substitutions)
    {
      var (found, c) := Lookup(cache, name, engine.isEngineName);
      cache := c;
      h := found;
    }

    /** `set`: records one statement, a bare Statement as `s >= 0`. */
    method Set(n: Node)
      requires Valid()
      modifies this
      ensures Valid()
      ensures statements == old(statements) + [Coerce(n)]
      ensures substitutions == old(substitutions) && cache == old(cache)
    {
      statements := statements + [Coerce(n)];
    }

    /**
     * `__setattr__`: a public name records the Equality between the name's
     * object and the value; an underscore name touches no statement. A
     * declared function or an engine attribute that is not an engine value
     * is refused by the engine's equation with ValueError, and nothing changes.
     */
    method SetAttr(name: string, value: Value) returns (r: Result<()>)
      requires Valid()
      modifies this
      ensures Valid()
      ensures var a := Assignment(old(cache), name, value, engine.isEngineName, engine.isEngineValue);
              && (r.Err? <==> a.Err?)
              && (r.Err? ==> r.error == ValueError && statements == old(statements) && cache == old(cache))
              && (r.Ok? ==> statements == old(statements) + a.value.0 && cache == a.value.1)
      ensures substitutions == old(substitutions)
    {
      if Internal(name) {
        return Ok(());
      }
      var h := GetAttr(name);
      if Unassignable(h, engine.isEngineValue) {
        return Err(ValueError);
      }
      Set(Eqn(Equality(HandleTerm(h), Ref(value))));
      r := Ok(());
    }

    /**
     * `point`: the coordinates' text is stored under the next placeholder
     * token, which is returned as a bound Statement.
     */
    method Point(coords: seq<Value>) returns (s: Statement)
      requires Valid()
      modifies this
      ensures Valid()
      ensures s == Symbol(Token(old(|substitutions|)))
      ensures !Registered(old(substitutions), s.expr.name)
      ensures substitutions == old(substitutions) + [Substitution(s.expr.name, PointText(engine, coords))]
      ensures statements == old(statements) && cache == old(cache)
    {
      var token := Token(|substitutions|);
      NextTokenFresh(substitutions, 2);
      CaptureAppends(substitutions, 2, PointText(engine, coords));
      substitutions := Store(substitutions, token, PointText(engine, coords));
      s := Symbol(token);
    }

    /**
     * The defaults loop of `function`: `__setattr__` for each name and value,
     * in order, until one raises.
     */
    method AssignAll(names: seq<string>, values: seq<Value>) returns (r: Result<()>)
      requires Valid() && |names| == |values|
      modifies this
      ensures Valid()
      ensures var run := Assignments(old(cache), names, values, engine.isEngineName, engine.isEngineValue);
              && statements == old(statements) + run.added && cache == run.cache
              && (r.Err? <==> run.failure.Some?)
              && (r.Err? ==> r.error == ValueError)
      ensures substitutions == old(substitutions)
    {
      for i := 0 to |names|
        invariant Valid() && substitutions == old(substitutions)
        invariant var run := Assignments(old(cache), names[..i], values[..i], engine.isEngineName, engine.isEngineValue);
                  statements == old(statements) + run.added && cache == run.cache && run.failure.None?
      {
        AssignmentsStep(old(cache), names, values, engine.isEngineName, engine.isEngineValue, i);
        var step := SetAttr(names[i], values[i]);
        if step.Err? {
          AssignmentsStop(old(cache), names, values, engine.isEngineName, engine.isEngineValue, i + 1);
          return Err(ValueError);
        }
      }
      assert names[..|names|] == names && values[..|values|] == values;
      r := Ok(());
    }

    /**
     * `function`: declares a plotted function. `fnName` is the Python
     * function's name, `params` its parameters, `defaults` the defaults of
     * the last ones, and `f` the function itself applied to Statements.
     * Defaulted parameters are first assigned their defaults, then the
     * Equality `target(leading params) = body` is recorded and the wrapper is
     * bound under the chosen name. A lambda is refused with ValueError; so
     * are a default assignment the engine refuses, which stops the loop, and
     * a body that is itself an Equality.
     */
    method Function(fnName: string, name: Option<string>, params: seq<string>, defaults: seq<Value>,
                    f: seq<Statement> -> Node) returns (r: Result<Handle>)
      requires Valid() && |defaults| <= |params|
      modifies this
      ensures Valid()
      ensures substitutions == old(substitutions)
      ensures ChosenName(fnName, name) == "<lambda>" ==>
        r == Err(ValueError) && statements == old(statements) && cache == old(cache)
      ensures ChosenName(fnName, name) != "<lambda>" ==>
        var split := |params| - |defaults|;
        var run := Assignments(old(cache), params[split..], defaults, engine.isEngineName, engine.isEngineValue);
        var body := f(Arguments(params));
        var target := TargetName(ChosenName(fnName, name));
        if run.failure.Some? || body.Eqn? then
          r == Err(ValueError) && statements == old(statements) + run.added && cache == run.cache
        else
          && r == Ok(HFunction(target))
          && statements == old(statements) + run.added + [Eqn(Equality(Fn(target, params[..split]), BodyTerm(body)))]
          && cache == run.cache[ChosenName(fnName, name) := HFunction(target)]
    {
      var chosen := ChosenName(fnName, name);
      if chosen == "<lambda>" {
        return Err(ValueError);
      }
      var target := TargetName(chosen);
      var split := |params| - |defaults|;
      var defaulted := AssignAll(params[split..], defaults);
      if defaulted.Err? {
        return Err(ValueError);
      }
      var body := f(Arguments(params));
      if body.Eqn? {
        return Err(ValueError);
      }
      // `set` records an Equality as it is
      statements := statements + [Eqn(Equality(Fn(target, params[..split]), BodyTerm(body)))];
      cache := cache[chosen := HFunction(target)];
      r := Ok(HFunction(target));
    }
  }

  /** After `clear`, the first captured point is named `v_{custom0002}`: the two customs come first. */
  lemma FirstPointAfterClear(engine: Engine)
    ensures Token(|Customs(engine)|) == "v_{custom0002}"
  {
    assert Digits(2) == "2";
    assert Zeros(3) == "000";
  }

  /**
   * A point over pi, captured right after `clear`, keeps the placeholder
   * symbol in the page: its token is replaced after the pi entry, so the
   * placeholder the point's text carries is never replaced.
   */
  lemma PointOverPiKeepsPlaceholder(engine: Engine)
    requires engine.latex(Sym(PiPlaceholder)) == PiPlaceholder
    ensures var point := PointText(engine, [Raw(SeedCache()["pi"].t)]);
            && point == "(" + PiPlaceholder + ")"
            && Substitute(Token(2), Customs(engine) + [Substitution(Token(2), point)]) == point
  {
    PointOfPlaceholder(engine);
    TokenPassesCustoms(engine, "(" + PiPlaceholder + ")");
  }

  /** The customs leave the first point token alone, so its own entry replaces it whole. */
  lemma TokenPassesCustoms(engine: Engine, point: string)
    ensures Substitute(Token(2), Customs(engine) + [Substitution(Token(2), point)]) == point
  {
    var t, customs := Token(2), Customs(engine);
    FirstPointAfterClear(engine);
    assert |t| == 14;
    // neither placeholder fits in the shorter token
    assert |customs[0].token| == 16 && |customs[1].token| == 15;
    assert Replace(t, customs[0].token, customs[0].text) == t;
    assert Replace(t, customs[1].token, customs[1].text) == t;
    assert customs[1..][0] == customs[1] && customs[1..][1..] == [];
    assert Substitute(t, customs[1..]) == t;
    assert Substitute(t, customs) == t;
    SubstituteAppend(t, customs, Substitution(t, point));
    ReplaceWhole(t, point);
  }

  /** Under the latest-first order the same page shows pi's LaTeX inside the point's parentheses. */
  lemma PointOverPiRenderedLatestFirst(engine: Engine)
    requires engine.latex(Sym(PiPlaceholder)) == PiPlaceholder
    ensures var point := PointText(engine, [Raw(SeedCache()["pi"].t)]);
            var rendered := SubstituteLatestFirst(Token(2), Customs(engine) + [Substitution(Token(2), point)]);
            && rendered == "(" + Customs(engine)[0].text + ")"
            && Unescape(rendered[1..|rendered| - 1]) == engine.latex(Sym("pi"))
  {
    var point, customs, t := "(" + PiPlaceholder + ")", Customs(engine), Token(2);
    PointOfPlaceholder(engine);
    assert customs == [customs[0], customs[1]];
    assert customs[0].token == PiPlaceholder && customs[1].token == EPlaceholder;
    PointLatestFirst(point, t, customs[0], customs[1]);
    var rendered := "(" + customs[0].text + ")";
    assert rendered[1..|rendered| - 1] == customs[0].text;
  }

  /**
   * Latest first, a point token is replaced by the point's text, the e entry
   * then finds nothing, and the pi entry replaces the placeholder inside the
   * parentheses.
   */
  lemma PointLatestFirst(point: string, t: string, pi: Substitution, e: Substitution)
    requires point == "(" + PiPlaceholder + ")" && t != []
    requires pi.token == PiPlaceholder && e.token == EPlaceholder
    ensures SubstituteLatestFirst(t, [pi, e] + [Substitution(t, point)]) == "(" + pi.text + ")"
  {
    LatestFirstAppend(t, [pi, e], Substitution(t, point));
    ReplaceWhole(t, point);
    LatestFirstPair(point, pi, e);
    PlaceholdersApart(point);
    ReplaceAbsent(point, e.token, e.text);
    PlaceholderInPoint(pi.text);
  }

  /** In a point over the pi placeholder, the placeholder is replaced once, inside the parentheses. */
  lemma PlaceholderInPoint(x: string)
    ensures Replace("(" + PiPlaceholder + ")", PiPlaceholder, x) == "(" + x + ")"
  {
    assert "(" + PiPlaceholder + ")" == ['('] + PiPlaceholder + ")";
    ReplaceAfter('(', PiPlaceholder, ")", x);
    assert Replace(")", PiPlaceholder, x) == ")";
  }

  /** The e placeholder does not occur in a point text over the pi placeholder. */
  lemma PlaceholdersApart(point: string)
    requires point == "(" + PiPlaceholder + ")"
    ensures !Occurs(point, EPlaceholder)
  {
    var p, e := PiPlaceholder, EPlaceholder;
    var tail := p + ")";
    PlaceholderLetters();
    assert point == ['('] + tail;
    OccursPastFirst('(', tail, e);
    // the only place the e placeholder could start is where pi's starts, and they part at the end
    assert tail[..|e|] == p[..|e|];
    assert tail[1..] == p[1..] + ")";
    AbsentFirstCharacter(tail[1..], e);
  }

  /** The two placeholders share their first fifteen letters but one, and that first letter only once. */
  lemma PlaceholderLetters()
    ensures |PiPlaceholder| == 16 && |EPlaceholder| == 15
    ensures PiPlaceholder[..15] != EPlaceholder
    ensures EPlaceholder[0] !in PiPlaceholder[1..] + ")"
  {
    assert PiPlaceholder[14] != EPlaceholder[14];
  }

  /** The text captured for a point over pi, when the placeholder's LaTeX is its name. */
  lemma PointOfPlaceholder(engine: Engine)
    requires engine.latex(Sym(PiPlaceholder)) == PiPlaceholder
    ensures PointText(engine, [Raw(SeedCache()["pi"].t)]) == "(" + PiPlaceholder + ")"
  {
    assert SeedCache()["pi"].t == Sym(PiPlaceholder);
    PointOfOne(engine, Raw(Sym(PiPlaceholder)));
    PlaceholderUnescaped();
  }

  lemma PlaceholderUnescaped()
    ensures Escape(PiPlaceholder) == PiPlaceholder
  {
    assert '\\' !in PiPlaceholder;
    EscapeFree(PiPlaceholder);
  }
}

=== FILE: errors.dfy ===
/** Failure values of the DSL. Python raises; the model returns `Err`. */
module Errors {

  /** The two exceptions the core raises on its own account. */
  datatype Error =
    | AttributeError  // a component without `strict` or `lump`, or an unset `strict`
    | ValueError      // a reflected boolean operator, or the anonymous function name

  datatype Option<+T> = None | Some(value: T)

  datatype Result<+T> = Ok(value: T) | Err(error: Error)
}

=== FILE: legacy.dfy ===
/**
 * The Calculator of the standalone module (`desmospy.py`): every seed name,
 * pi and e among them, is a bound Statement, unknown names always become new
 * Statements, `set` records what it is given, and the point tokens are
 * numbered from zero.
 */
module LegacyDesmospy {
  import opened Errors
  import opened Terms
  import opened Statements
  import opened Relations
  import opened Combinators
  import opened Text
  import opened Session

  /** No name resolves to an engine attribute in this module. */
  const NoEngineNames: string -> bool := _ => false

  const DefaultWidth := 720
  const DefaultHeight := 360

  /** The names bound when a calculator is created, each to the Statement of the same name. */
  function SeedCache(): (r: map<string, Handle>)
    ensures r.Keys == {"x", "y", "r", "theta", "pi", "e"}
    ensures forall k :: k in r ==> r[k] == HStmt(Symbol(k))
  {
    map["x" := HStmt(Symbol("x")), "y" := HStmt(Symbol("y")), "r" := HStmt(Symbol("r")),
        "theta" := HStmt(Symbol("theta")), "pi" := HStmt(Symbol("pi")), "e" := HStmt(Symbol("e"))]
  }

  class Calculator {
    const engine: Engine
    const width: int
    const height: int
    const url: string
    /** The remaining keyword options as the plotting surface receives them. */
    const options: string
    var statements: seq<Node>
    /** `_substitutions`, in insertion order. */
    var substitutions: seq<Substitution>
    var cache: map<string, Handle>

    /**
     * The registry holds the point tokens numbered by position; the seed names
     * stay bound; the cache holds Statements only.
     */
    ghost predicate Valid()
      reads this
    {
      && Numbered(substitutions, 0)
      && SeedCache().Keys <= cache.Keys
      && forall k :: k in cache ==> cache[k].HStmt?
    }

    /**
     * `Calculator(width=720, height=360, **kwargs)`: an argument left out
     * (`None`) takes its default. `format` stands for Python's `%` formatting
     * of the URL template, `dumps` for the JSON encoding of the remaining options.
     */
    constructor (engine: Engine, width: Option<int>, height: Option<int>, kwargs: map<string, string>,
                 format: (string, string, string) -> string, dumps: map<string, string> -> string)
      ensures Valid()
      ensures this.engine == engine
      ensures this.width == (if width.Some? then width.value else DefaultWidth)
      ensures this.height == (if height.Some? then height.value else DefaultHeight)
      ensures url == UrlFromKwargs(kwargs, format).1 && options == dumps(UrlFromKwargs(kwargs, format).0)
      ensures cache == SeedCache() && statements == [] && substitutions == []
    {
      this.engine := engine;
      this.width := if width.Some? then width.value else DefaultWidth;
      this.height := if height.Some? then height.value else DefaultHeight;
      var (rest, u) := UrlFromKwargs(kwargs, format);
      url := u;
      options := dumps(rest);
      cache := SeedCache();
      statements := [];
      substitutions := [];
    }

    /** `html`: the page for the current statements and substitutions, or the rendering error. */
    method Html() returns (r: Result<string>)
      ensures r == Document(url, options, Page(engine, statements, substitutions))
    {
      var page := Render(engine, statements, substitutions);
      r := Document(url, options, page);
    }

    /**
     * `show`: the page is produced first; only when that succeeds and `clear`
     * is set are the statements and substitutions emptied.
     */
    method Show(clear: bool) returns (r: Result<string>)
      requires Valid()
      modifies this
      ensures Valid()
      ensures r == old(Document(url, options, Page(engine, statements, substitutions)))
      ensures r.Ok? && clear ==> statements == [] && substitutions == [] && cache == old(cache)
      ensures !(r.Ok? && clear) ==>
        statements == old(statements) && substitutions == old(substitutions) && cache == old(cache)
    {
      // the rendered combinators are allocated, so the call leaves the page as it was
      assert forall o :: o in Objects(statements) ==> allocated(o);
      r := Html();
      if r.Ok? && clear {
        Empty();
      }
    }

    /** The clearing half of `show`: no statements and no substitutions. */
    method Empty()
      requires Valid()
      modifies this
      ensures Valid()
      ensures statements == [] && substitutions == [] && cache == old(cache)
    {
      statements := [];
      substitutions := [];
    }

    /** `__getattr__`: the cached object, or a new Statement bound to the name and cached. */
    method GetAttr(name: string) returns (h: Handle)
      requires Valid()
      modifies this
      ensures Valid()
      ensures (h, cache) == Lookup(old(cache), name, NoEngineNames)
      ensures name !in old(cache) ==> h == HStmt(Symbol(name)) && cache == old(cache)[name := h]
      ensures statements == old(statements) && substitutions == old(substitutions)
    {
      var (found, c) := Lookup(cache, name, NoEngineNames);
      cache := c;
      h := found;
    }

    /** `set`: records the object as given. */
    method Set(n: Node)
      modifies this
      ensures statements == old(statements) + [n]
      ensures substitutions == old(substitutions) && cache == old(cache)
    {
      statements := statements + [n];
    }

    /**
     * `__setattr__`: a public name records the Equality between the name's
     * Statement and the value; an underscore name touches no statement. Every
     * name resolves to a Statement here, so the engine never refuses one.
     */
    method SetAttr(name: string, value: Value)
      requires Valid()
      modifies this
      ensures Valid()
      ensures Assignment(old(cache), name, value, NoEngineNames, engine.isEngineValue).Ok?
      ensures var (ns, c) := Assignment(old(cache), name, value, NoEngineNames, engine.isEngineValue).value;
              statements == old(statements) + ns && cache == c
      ensures substitutions == old(substitutions)
    {
      if Internal(name) {
        return;
      }
      var h := GetAttr(name);
      Set(Eqn(Equality(HandleTerm(h), Ref(value))));
    }

    /**
     * `point`: the coordinates' text is stored under the next placeholder
     * token, which is returned as a bound Statement.
     */
    method Point(coords: seq<Value>) returns (s: Statement)
      requires Valid()
      modifies this
      ensures Valid()
      ensures s == Symbol(Token(old(|substitutions|)))
      ensures !Registered(old(substitutions), s.expr.name)
      ensures substitutions == old(substitutions) + [Substitution(s.expr.name, PointText(engine, coords))]
      ensures statements == old(statements) && cache == old(cache)
    {
      var token := Token(|substitutions|);
      NextTokenFresh(substitutions, 0);
      Capture(PointText(engine, coords));
      s := Symbol(token);
    }

    /** The registry half of `point`: the text stored under the next token. */
    method Capture(text: string)
      requires Valid()
      modifies this
      ensures Valid()
      ensures substitutions == old(substitutions) + [Substitution(Token(old(|substitutions|)), text)]
      ensures statements == old(statements) && cache == old(cache)
    {
      var before := substitutions;
      CaptureAppends(before, 0, text);
      substitutions := Store(before, Token(|before|), text);
      assert substitutions == before + [Substitution(Token(|before|), text)];
    }
  }

  /** In this module the first captured point is named `v_{custom0000}`. */
  lemma FirstPoint()
    ensures Token(0) == "v_{custom0000}"
  {
    assert Digits(0) == "0";
    assert Zeros(3) == "000";
  }
}

=== FILE: relations.dfy ===
/**
 * The comparison nodes (the four Inequality subclasses) and the Equality node.
 * Both source files define them identically.
 */
module Relations {
  import opened Terms
  import opened Statements

  /** An Inequality: the subclass is `order`; both sides are already unwrapped. */
  datatype Comparison = Comparison(order: Order, lhs: Term, rhs: Term)

  /** `Inequality.__init__`: Statements on either side are unwrapped. */
  function MakeComparison(order: Order, lhs: Value, rhs: Value): (r: Comparison)
    ensures r.order == order
    ensures forall v :: Holds(r, v) <==> OrderHolds(order, Eval(Ref(lhs), v), Eval(Ref(rhs), v))
  {
    Comparison(order, Ref(lhs), Ref(rhs))
  }

  /** The `strict` attribute set by each subclass constructor: set exactly for the relations that fail on equal operands. */
  predicate Strict(c: Comparison)
    ensures Strict(c) <==> !OrderHolds(c.order, 0.0, 0.0)
  {
    c.order == LessThan || c.order == GreaterThan
  }

  /**
   * The `lump` property: `rhs - lhs` for the Less classes, `lhs - rhs` for
   * the Greater ones, a difference that clears zero (strictly for a strict
   * relation) exactly when the comparison holds.
   */
  function Lump(c: Comparison): (r: Term)
    ensures r.Bin? && r.op == Minus
    ensures c.order == LessThan || c.order == LessEqual ==> r == Bin(Minus, c.rhs, c.lhs)
    ensures c.order == GreaterThan || c.order == GreaterEqual ==> r == Bin(Minus, c.lhs, c.rhs)
    ensures forall v :: AboveZero(Eval(r, v), Strict(c)) <==> Holds(c, v)
  {
    match c.order
    case LessThan => Bin(Minus, c.rhs, c.lhs)
    case LessEqual => Bin(Minus, c.rhs, c.lhs)
    case GreaterThan => Bin(Minus, c.lhs, c.rhs)
    case GreaterEqual => Bin(Minus, c.lhs, c.rhs)
  }

  /**
   * The condition a combinator renders: `t > 0` when strict, `t >= 0`
   * otherwise. It holds exactly when `t` clears zero.
   */
  function ZeroCondition(t: Term, strict: bool): (c: Comparison)
    ensures Strict(c) == strict && c.lhs == t && c.rhs == Num(0.0)
    ensures forall v :: Holds(c, v) <==> AboveZero(Eval(t, v), strict)
  {
    Comparison(if strict then GreaterThan else GreaterEqual, t, Num(0.0))
  }

  /** `__invert__`: the negated relation over the same operands. */
  function Invert(c: Comparison): (r: Comparison)
    ensures r.lhs == c.lhs && r.rhs == c.rhs
    ensures Strict(r) == !Strict(c)
  {
    match c.order
    case LessThan => Comparison(GreaterEqual, c.lhs, c.rhs)
    case LessEqual => Comparison(GreaterThan, c.lhs, c.rhs)
    case GreaterThan => Comparison(LessEqual, c.lhs, c.rhs)
    case GreaterEqual => Comparison(LessThan, c.lhs, c.rhs)
  }

  /** The engine term `op(lhs, rhs)` that `__str__` renders. */
  function RelTerm(c: Comparison): Term {
    Rel(c.order, c.lhs, c.rhs)
  }

  predicate Holds(c: Comparison, v: Valuation) {
    OrderHolds(c.order, Eval(c.lhs, v), Eval(c.rhs, v))
  }

  /** Inverting twice gives back the original relation and operands. */
  lemma InvertInvolutive(c: Comparison)
    ensures Invert(Invert(c)) == c
  {
  }

  /** Inversion pairs LessThan with GreaterEqual and LessEqual with GreaterThan. */
  lemma InvertPairs(c: Comparison)
    ensures Invert(c).order == match c.order
      case LessThan => GreaterEqual
      case GreaterEqual => LessThan
      case LessEqual => GreaterThan
      case GreaterThan => LessEqual
  {
  }

  /** The inverse holds exactly when the original does not. */
  lemma InvertNegates(c: Comparison, v: Valuation)
    ensures Holds(Invert(c), v) <==> !Holds(c, v)
  {
  }

  /** The lump is positive (strict) or non-negative (otherwise) exactly when the comparison holds. */
  lemma LumpSignMatches(c: Comparison, v: Valuation)
    ensures AboveZero(Eval(Lump(c), v), Strict(c)) <==> Holds(c, v)
  {
  }

  /**
   * The sign condition the `lump` doc comments state: ">= zero" on LessThan
   * and GreaterEqual, "> zero" on LessEqual and GreaterThan.
   */
  predicate DocumentedLumpCondition(c: Comparison, v: Valuation) {
    var x := Eval(Lump(c), v);
    if c.order == LessEqual || c.order == GreaterThan then x > 0.0 else x >= 0.0
  }

  /** The documented condition is wrong for `0 < 0` and for `0 <= 0`. */
  lemma DocumentedLumpConditionFails(v: Valuation)
    ensures var zero := Num(0.0);
            && DocumentedLumpCondition(Comparison(LessThan, zero, zero), v)
            && !Holds(Comparison(LessThan, zero, zero), v)
            && !DocumentedLumpCondition(Comparison(LessEqual, zero, zero), v)
            && Holds(Comparison(LessEqual, zero, zero), v)
  {
  }

  /** `Statement.__lt__`, `__le__`, `__gt__`, `__ge__`. */
  function Compare(order: Order, s: Statement, other: Value): (r: Comparison)
    ensures forall v :: Holds(r, v) <==> OrderHolds(order, Eval(s.expr, v), Eval(Ref(other), v))
  {
    MakeComparison(order, Stmt(s), other)
  }

  /** The Equality node: `Eq(lhs, rhs)` with Statements unwrapped. */
  datatype Equality = Equality(lhs: Term, rhs: Term)

  /** `Equality.__init__`: Statements on either side are unwrapped. */
  function MakeEquality(lhs: Value, rhs: Value): (r: Equality)
    ensures forall v :: EqualityHolds(r, v) <==> Eval(Ref(lhs), v) == Eval(Ref(rhs), v)
  {
    Equality(Ref(lhs), Ref(rhs))
  }

  /** The engine term `Eq(lhs, rhs)` that `__str__` renders. */
  function EqTerm(e: Equality): Term {
    Eq(e.lhs, e.rhs)
  }

  /** An equation holds when both sides evaluate to the same value. */
  predicate EqualityHolds(e: Equality, v: Valuation) {
    Eval(e.lhs, v) == Eval(e.rhs, v)
  }

  /** `Statement.__eq__`: an Equality with the Statement's term on the left. */
  function EqualTo(s: Statement, other: Value): (r: Equality)
    ensures r.lhs == s.expr && r.rhs == Ref(other)
    ensures forall v :: EqualityHolds(r, v) <==> Eval(s.expr, v) == Eval(Ref(other), v)
  {
    MakeEquality(Stmt(s), other)
  }
}

=== FILE: session.dfy ===
/**
 * What the Calculator classes of both source files share: the external
 * collaborators, the symbol-cache lookup, attribute assignment, statement
 * rendering, point capture and placeholder numbering, and the URL options.
 */
module Session {
  import opened Errors
  import opened Terms
  import opened Statements
  import opened Relations
  import opened Combinators
  import opened Text

  /**
   * The collaborators outside the model: the engine's LaTeX renderer, its
   * plain `str`, its `simplify`, the host's `repr`, whether a name is an
   * attribute of the engine module, and whether such an attribute is itself
   * an engine value (a constant such as `oo`) that an equation accepts, rather
   * than a function class such as `sin` or a submodule.
   */
  datatype Engine = Engine(
    latex: Term -> string,
    str: Term -> string,
    simplify: Term -> Term,
    repr: string -> string,
    isEngineName: string -> bool,
    isEngineValue: string -> bool)

  /**
   * `Calculator.__getattr__`: the cached object; otherwise an engine
   * attribute, not cached; otherwise a new Statement bound to the name,
   * stored in the cache. Yields the object and the new cache.
   */
  function Lookup(cache: map<string, Handle>, name: string, engineName: string -> bool): (r: (Handle, map<string, Handle>))
    ensures r.1.Keys <= cache.Keys + {name}
    ensures forall k :: k in cache ==> k in r.1 && r.1[k] == cache[k]
    ensures name in r.1 ==> r.1[name] == r.0
    ensures name !in r.1 ==> r.0 == HEngine(name) && engineName(name)
    ensures name !in cache && engineName(name) ==> r == (HEngine(name), cache)
    ensures name !in cache && !engineName(name) ==> r.0 == HStmt(Symbol(name))
  {
    if name in cache then (cache[name], cache)
    else if engineName(name) then (HEngine(name), cache)
    else var h := HStmt(Symbol(name)); (h, cache[name := h])
  }

  /** Looking the same name up again yields the same object and leaves the cache alone. */
  lemma LookupStable(cache: map<string, Handle>, name: string, engineName: string -> bool)
    ensures var (h, c) := Lookup(cache, name, engineName); Lookup(c, name, engineName) == (h, c)
  {
  }

  /** `name[:1] == '_'`: `__setattr__` sets a host attribute instead of a statement. */
  predicate Internal(name: string)
    ensures Internal(name) <==> "_" <= name
  {
    |name| >= 1 && name[0] == '_'
  }

  /**
   * An object the engine refuses as a side of an equation (a ValueError): the
   * wrapper that `function` binds, or an engine attribute that is not an
   * engine value.
   */
  predicate Unassignable(h: Handle, engineValue: string -> bool)
    ensures h.HStmt? || h.HRaw? ==> !Unassignable(h, engineValue)
    ensures h.HFunction? ==> Unassignable(h, engineValue)
    ensures h.HEngine? ==> (Unassignable(h, engineValue) <==> !engineValue(h.name))
  {
    h.HFunction? || (h.HEngine? && !engineValue(h.name))
  }

  /**
   * `Calculator.__setattr__`: the statements it appends and the cache after it.
   * A public name appends one Equality between the looked-up object and the
   * value, unless the engine refuses that object in an equation.
   */
  function Assignment(cache: map<string, Handle>, name: string, value: Value,
                      engineName: string -> bool, engineValue: string -> bool)
    : (r: Result<(seq<Node>, map<string, Handle>)>)
    ensures Internal(name) ==> r == Ok(([], cache))
    ensures r.Err? <==> !Internal(name) && Unassignable(Lookup(cache, name, engineName).0, engineValue)
    ensures r.Err? ==> r.error == ValueError && Lookup(cache, name, engineName).1 == cache
    ensures r.Ok? && !Internal(name) ==>
      && r.value.0 == [Eqn(Equality(HandleTerm(Lookup(cache, name, engineName).0), Ref(value)))]
      && r.value.1 == Lookup(cache, name, engineName).1
  {
    if Internal(name) then Ok(([], cache))
    else
      var (h, c) := Lookup(cache, name, engineName);
      if Unassignable(h, engineValue) then Err(ValueError)
      else Ok(([Eqn(Equality(HandleTerm(h), Ref(value)))], c))
  }

  /**
   * `c` is `cache` after some lookups: every old entry is kept and every new
   * one is the Statement bound to its own name, which is not an engine name.
   */
  predicate Vivified(cache: map<string, Handle>, c: map<string, Handle>, engineName: string -> bool) {
    && (forall k :: k in cache ==> k in c && c[k] == cache[k])
    && (forall k :: k in c && k !in cache ==> c[k] == HStmt(Symbol(k)) && !engineName(k))
  }

  /** After lookups, a name resolves to the object it resolved to before them, and the cache stays vivified. */
  lemma {:induction false} LookupAfterLookups(cache: map<string, Handle>, c: map<string, Handle>, name: string,
                                              engineName: string -> bool)
    requires Vivified(cache, c, engineName)
    ensures Lookup(c, name, engineName).0 == Lookup(cache, name, engineName).0
    ensures Vivified(cache, Lookup(c, name, engineName).1, engineName)
  {
    var c' := Lookup(c, name, engineName).1;
    forall k | k in c' && k !in cache
      ensures c'[k] == HStmt(Symbol(k)) && !engineName(k)
    {
      if k != name {
        assert k in c;
      }
    }
  }

  /** A prefix of a prefix is a prefix. */
  lemma Prefix<T>(s: seq<T>, n: nat, j: nat)
    requires j <= n <= |s|
    ensures s[..n][..j] == s[..j]
  {
  }

  /**
   * The equations a run of assignments records when none fails: one per
   * public name, in order, each with the object the name has in `cache`.
   */
  function Equations(cache: map<string, Handle>, names: seq<string>, values: seq<Value>, engineName: string -> bool)
    : (r: seq<Node>)
    requires |names| == |values|
    ensures |r| == |set i | 0 <= i < |names| && !Internal(names[i])|
    decreases |names|
  {
    if names == [] then []
    else
      var n := |names| - 1;
      assert (set i | 0 <= i < |names| && !Internal(names[i]))
          == (set i | 0 <= i < n && !Internal(names[..n][i])) + (if Internal(names[n]) then {} else {n});
      Equations(cache, names[..n], values[..n], engineName)
        + (if Internal(names[n]) then []
           else [Eqn(Equality(HandleTerm(Lookup(cache, names[n], engineName).0), Ref(values[n])))])
  }

  /** Where a run of assignments ends: what it appended, the cache, and the error that stopped it, if any. */
  datatype Run = Run(added: seq<Node>, cache: map<string, Handle>, failure: Option<Error>)

  /** The first public name of a run that the engine refuses in an equation. */
  predicate FailsAt(cache: map<string, Handle>, names: seq<string>, j: int,
                    engineName: string -> bool, engineValue: string -> bool)
  {
    && 0 <= j < |names|
    && !Internal(names[j]) && Unassignable(Lookup(cache, names[j], engineName).0, engineValue)
    && forall i :: 0 <= i < j && !Internal(names[i]) ==> !Unassignable(Lookup(cache, names[i], engineName).0, engineValue)
  }

  /** A run of assignments, in order, stopping at the first that raises. */
  function Assignments(cache: map<string, Handle>, names: seq<string>, values: seq<Value>,
                       engineName: string -> bool, engineValue: string -> bool)
    : Run
    requires |names| == |values|
    decreases |names|
  {
    if names == [] then Run([], cache, None)
    else
      var n := |names| - 1;
      var prev := Assignments(cache, names[..n], values[..n], engineName, engineValue);
      if prev.failure.Some? then prev
      else
        match Assignment(prev.cache, names[n], values[n], engineName, engineValue)
        case Err(e) => Run(prev.added, prev.cache, Some(e))
        case Ok(step) => Run(prev.added + step.0, step.1, None)
  }

  /**
   * What a run of assignments records: every name resolves to the object it
   * had before the run, so the run appends `Equations` of the starting cache
   * when no name is refused, and those of the names before the first refused
   * one otherwise; the cache only gains Statements bound to new names.
   */
  lemma AssignmentsRecord(cache: map<string, Handle>, names: seq<string>, values: seq<Value>,
                          engineName: string -> bool, engineValue: string -> bool)
    requires |names| == |values|
    ensures var r := Assignments(cache, names, values, engineName, engineValue);
      && Vivified(cache, r.cache, engineName)
      && (r.failure.None? <==>
           forall i :: 0 <= i < |names| && !Internal(names[i]) ==> !Unassignable(Lookup(cache, names[i], engineName).0, engineValue))
      && (r.failure.None? ==> r.added == Equations(cache, names, values, engineName))
      && (r.failure.Some? ==>
           && r.failure.value == ValueError
           && exists j :: FailsAt(cache, names, j, engineName, engineValue)
                       && r.added == Equations(cache, names[..j], values[..j], engineName))
  {
    RecordedRun(cache, names, values, engineName, engineValue);
  }

  /** The conclusion of `AssignmentsRecord` about a run `r` of the given names. */
  ghost predicate Recorded(cache: map<string, Handle>, names: seq<string>, values: seq<Value>,
                           engineName: string -> bool, engineValue: string -> bool, r: Run)
    requires |names| == |values|
  {
    && Vivified(cache, r.cache, engineName)
    && (r.failure.None? <==>
         forall i :: 0 <= i < |names| && !Internal(names[i]) ==> !Unassignable(Lookup(cache, names[i], engineName).0, engineValue))
    && (r.failure.None? ==> r.added == Equations(cache, names, values, engineName))
    && (r.failure.Some? ==>
         && r.failure.value == ValueError
         && exists j :: FailsAt(cache, names, j, engineName, engineValue)
                     && r.added == Equations(cache, names[..j], values[..j], engineName))
  }

  lemma {:induction false} RecordedRun(cache: map<string, Handle>, names: seq<string>, values: seq<Value>,
                                       engineName: string -> bool, engineValue: string -> bool)
    requires |names| == |values|
    ensures Recorded(cache, names, values, engineName, engineValue, Assignments(cache, names, values, engineName, engineValue))
    decreases |names|
  {
    if names != [] {
      var n := |names| - 1;
      RecordedRun(cache, names[..n], values[..n], engineName, engineValue);
      if Assignments(cache, names[..n], values[..n], engineName, engineValue).failure.Some? {
        RecordedAfterFailure(cache, names, values, engineName, engineValue);
      } else {
        RecordedAfterStep(cache, names, values, engineName, engineValue);
      }
    }
  }

  /** A run whose prefix has failed keeps that prefix's record. */
  lemma RecordedAfterFailure(cache: map<string, Handle>, names: seq<string>, values: seq<Value>,
                             engineName: string -> bool, engineValue: string -> bool)
    requires |names| == |values| && names != []
    requires var n := |names| - 1;
      var prev := Assignments(cache, names[..n], values[..n], engineName, engineValue);
      prev.failure.Some? && Recorded(cache, names[..n], values[..n], engineName, engineValue, prev)
    ensures Recorded(cache, names, values, engineName, engineValue, Assignments(cache, names, values, engineName, engineValue))
  {
    var n := |names| - 1;
    var prev := Assignments(cache, names[..n], values[..n], engineName, engineValue);
    assert forall i :: 0 <= i < n ==> names[..n][i] == names[i];
    var j :| FailsAt(cache, names[..n], j, engineName, engineValue)
          && prev.added == Equations(cache, names[..n][..j], values[..n][..j], engineName);
    Prefix(names, n, j);
    Prefix(values, n, j);
    assert FailsAt(cache, names, j, engineName, engineValue);
  }

  /** A run whose prefix has not failed extends the prefix's record by the last name's assignment. */
  lemma RecordedAfterStep(cache: map<string, Handle>, names: seq<string>, values: seq<Value>,
                          engineName: string -> bool, engineValue: string -> bool)
    requires |names| == |values| && names != []
    requires var n := |names| - 1;
      var prev := Assignments(cache, names[..n], values[..n], engineName, engineValue);
      prev.failure.None? && Recorded(cache, names[..n], values[..n], engineName, engineValue, prev)
    ensures Recorded(cache, names, values, engineName, engineValue, Assignments(cache, names, values, engineName, engineValue))
  {
    var n := |names| - 1;
    var prev := Assignments(cache, names[..n], values[..n], engineName, engineValue);
    assert forall i :: 0 <= i < n ==> names[..n][i] == names[i];
    LookupAfterLookups(cache, prev.cache, names[n], engineName);
    if Assignment(prev.cache, names[n], values[n], engineName, engineValue).Err? {
      StepRefused(cache, names, values, engineName, engineValue, prev);
    } else {
      StepAccepted(cache, names, values, engineName, engineValue, prev);
    }
  }

  /** The last name is refused: the run fails there, with the prefix's equations. */
  lemma StepRefused(cache: map<string, Handle>, names: seq<string>, values: seq<Value>,
                    engineName: string -> bool, engineValue: string -> bool, prev: Run)
    requires |names| == |values| && names != []
    requires var n := |names| - 1;
      && prev == Assignments(cache, names[..n], values[..n], engineName, engineValue)
      && prev.failure.None? && Recorded(cache, names[..n], values[..n], engineName, engineValue, prev)
      && (forall i :: 0 <= i < n ==> names[..n][i] == names[i])
      && Lookup(prev.cache, names[n], engineName).0 == Lookup(cache, names[n], engineName).0
      && Assignment(prev.cache, names[n], values[n], engineName, engineValue).Err?
    ensures Recorded(cache, names, values, engineName, engineValue, Assignments(cache, names, values, engineName, engineValue))
  {
    var n := |names| - 1;
    assert Assignments(cache, names, values, engineName, engineValue) == Run(prev.added, prev.cache, Some(ValueError));
    assert FailsAt(cache, names, n, engineName, engineValue);
    assert names[..n] == names[..|names| - 1] && values[..n] == values[..|values| - 1];
  }

  /** The last name is accepted: the run goes on with its equation and its lookup's cache. */
  lemma StepAccepted(cache: map<string, Handle>, names: seq<string>, values: seq<Value>,
                     engineName: string -> bool, engineValue: string -> bool, prev: Run)
    requires |names| == |values| && names != []
    requires var n := |names| - 1;
      && prev == Assignments(cache, names[..n], values[..n], engineName, engineValue)
      && prev.failure.None? && Recorded(cache, names[..n], values[..n], engineName, engineValue, prev)
      && (forall i :: 0 <= i < n ==> names[..n][i] == names[i])
      && Lookup(prev.cache, names[n], engineName).0 == Lookup(cache, names[n], engineName).0
      && Vivified(cache, Lookup(prev.cache, names[n], engineName).1, engineName)
      && Assignment(prev.cache, names[n], values[n], engineName, engineValue).Ok?
    ensures Recorded(cache, names, values, engineName, engineValue, Assignments(cache, names, values, engineName, engineValue))
  {
    var n := |names| - 1;
    var step := Assignment(prev.cache, names[n], values[n], engineName, engineValue).value;
    assert Assignments(cache, names, values, engineName, engineValue) == Run(prev.added + step.0, step.1, None);
    assert names[..n] == names[..|names| - 1] && values[..n] == values[..|values| - 1];
  }

  /** One more name extends a run that has not failed by that name's assignment. */
  lemma AssignmentsStep(cache: map<string, Handle>, names: seq<string>, values: seq<Value>,
                        engineName: string -> bool, engineValue: string -> bool, i: nat)
    requires |names| == |values| && i < |names|
    requires Assignments(cache, names[..i], values[..i], engineName, engineValue).failure.None?
    ensures var prev := Assignments(cache, names[..i], values[..i], engineName, engineValue);
            Assignments(cache, names[..i + 1], values[..i + 1], engineName, engineValue)
              == match Assignment(prev.cache, names[i], values[i], engineName, engineValue)
                 case Err(e) => Run(prev.added, prev.cache, Some(e))
                 case Ok(step) => Run(prev.added + step.0, step.1, None)
  {
    Prefix(names, i + 1, i);
    Prefix(values, i + 1, i);
  }

  /** A run stops at its first refused name: once a prefix has failed, the names after it add nothing. */
  lemma {:induction false} AssignmentsStop(cache: map<string, Handle>, names: seq<string>, values: seq<Value>,
                                           engineName: string -> bool, engineValue: string -> bool, k: nat)
    requires |names| == |values| && k <= |names|
    requires Assignments(cache, names[..k], values[..k], engineName, engineValue).failure.Some?
    ensures Assignments(cache, names, values, engineName, engineValue)
         == Assignments(cache, names[..k], values[..k], engineName, engineValue)
    decreases |names|
  {
    if k < |names| {
      var n := |names| - 1;
      Prefix(names, n, k);
      Prefix(values, n, k);
      AssignmentsStop(cache, names[..n], values[..n], engineName, engineValue, k);
    } else {
      assert names[..k] == names && values[..k] == values;
    }
  }

  /** `str(e)` for a statement: AttributeError for a combinator whose `strict` is unset. */
  function StatementText(engine: Engine, n: Node): (r: Result<string>)
    reads Frame(n)
    ensures r.Err? <==> n.Comb? && n.b.strict.None?
    ensures r.Err? ==> r.error == AttributeError
    ensures n.Cmp? ==> r == Ok(engine.latex(RelTerm(n.c)))
    ensures n.Eqn? ==> r == Ok(engine.latex(EqTerm(n.e)))
    ensures n.Comb? && n.b.strict.Some? ==>
      r == Ok(engine.latex(engine.simplify(RelTerm(ZeroCondition(n.b.Lump(), n.b.strict.value)))))
    ensures n.Bare? ==> r == Ok(engine.latex(n.s.expr))
    ensures n.Foreign? ==> r == Ok(engine.str(n.t))
  {
    match n
    case Cmp(c) => Ok(engine.latex(RelTerm(c)))
    case Eqn(e) => Ok(engine.latex(EqTerm(e)))
    case Comb(b) =>
      if b.strict.None? then Err(AttributeError)
      else Ok(engine.latex(engine.simplify(RelTerm(ZeroCondition(b.Lump(), b.strict.value)))))
    case Bare(s) => Ok(engine.latex(s.expr))
    case Foreign(t) => Ok(engine.str(t))
  }

  /** The combinators among a list of statements. */
  function Objects(ns: seq<Node>): set<object> {
    set n | n in ns && n.Comb? :: n.b
  }

  /** A statement whose rendering fails. */
  predicate Unrenderable(n: Node)
    reads Frame(n)
  {
    n.Comb? && n.b.strict.None?
  }

  /** The texts of all statements, in order, or the error of one that cannot be rendered. */
  function Texts(engine: Engine, ns: seq<Node>): (r: Result<seq<string>>)
    reads Objects(ns)
    ensures r.Err? <==> exists i :: 0 <= i < |ns| && Unrenderable(ns[i])
    ensures r.Err? ==> r.error == AttributeError
    ensures r.Ok? ==> |r.value| == |ns| && forall i :: 0 <= i < |ns| ==> StatementText(engine, ns[i]) == Ok(r.value[i])
  {
    if ns == [] then Ok([])
    else
      var n := |ns| - 1;
      assert forall i :: 0 <= i < n ==> ns[..n][i] == ns[i];
      match Texts(engine, ns[..n])
      case Err(e) => Err(e)
      case Ok(ts) =>
        match StatementText(engine, ns[n])
        case Err(e) => Err(e)
        case Ok(t) => Ok(ts + [t])
  }

  /** `repr` of every text. */
  function Quote(engine: Engine, texts: seq<string>): (r: seq<string>)
    ensures |r| == |texts| && forall i :: 0 <= i < |texts| ==> r[i] == engine.repr(texts[i])
  {
    seq(|texts|, i requires 0 <= i < |texts| => engine.repr(texts[i]))
  }

  /** The `html` property without its page template: the script, then the substitutions. */
  function Page(engine: Engine, ns: seq<Node>, subs: seq<Substitution>): (r: Result<string>)
    reads Objects(ns)
    ensures r.Err? <==> exists i :: 0 <= i < |ns| && Unrenderable(ns[i])
    ensures r.Err? ==> r.error == AttributeError
    ensures r.Ok? ==> exists texts :: Texts(engine, ns) == Ok(texts) && r.value == Substitute(Script(Quote(engine, texts)), subs)
  {
    match Texts(engine, ns)
    case Err(e) => Err(e)
    case Ok(ts) => Ok(Substitute(Script(Quote(engine, ts)), subs))
  }

  /** When every statement renders, the page is the joined blocks with the substitutions applied. */
  lemma PageOf(engine: Engine, ns: seq<Node>, subs: seq<Substitution>, texts: seq<string>, blocks: seq<string>)
    requires Texts(engine, ns) == Ok(texts) && blocks == Blocks(Quote(engine, texts))
    ensures Page(engine, ns, subs) == Ok(Substitute(Join("\n", blocks), subs))
  {
  }

  /** One statement that cannot be rendered makes the whole page fail. */
  lemma PageErr(engine: Engine, ns: seq<Node>, subs: seq<Substitution>, i: nat)
    requires i < |ns| && Unrenderable(ns[i])
    ensures Page(engine, ns, subs) == Err(AttributeError)
  {
  }

  /** One loop step of `html`: the next statement's text and block. */
  lemma RenderStep(engine: Engine, ns: seq<Node>, i: nat, texts: seq<string>, t: string)
    requires i < |ns| && Texts(engine, ns[..i]) == Ok(texts) && StatementText(engine, ns[i]) == Ok(t)
    ensures Texts(engine, ns[..i + 1]) == Ok(texts + [t])
    ensures Blocks(Quote(engine, texts + [t])) == Blocks(Quote(engine, texts)) + [LatexFmt(i, engine.repr(t))]
  {
    assert ns[..i + 1][..i] == ns[..i];
    var q := Quote(engine, texts + [t]);
    assert q[..|q| - 1] == Quote(engine, texts);
  }

  /** The `html` loop: one block per statement with its index as id, joined, then every substitution in order. */
  method Render(engine: Engine, ns: seq<Node>, subs: seq<Substitution>) returns (r: Result<string>)
    ensures r == Page(engine, ns, subs)
  {
    var blocks: seq<string> := [];
    ghost var texts: seq<string> := [];
    for i := 0 to |ns|
      invariant Texts(engine, ns[..i]) == Ok(texts)
      invariant blocks == Blocks(Quote(engine, texts))
    {
      var t := StatementText(engine, ns[i]);
      if t.Err? {
        PageErr(engine, ns, subs, i);
        return Err(AttributeError);
      }
      RenderStep(engine, ns, i, texts, t.value);
      texts := texts + [t.value];
      blocks := blocks + [LatexFmt(i, engine.repr(t.value))];
    }
    assert ns[..|ns|] == ns;
    PageOf(engine, ns, subs, texts, blocks);
    var script := Join("\n", blocks);
    var out := script;
    for j := 0 to |subs|
      invariant Substitute(out, subs[j..]) == Substitute(script, subs)
    {
      assert subs[j..][1..] == subs[j + 1..];
      out := Replace(out, subs[j].token, subs[j].text);
    }
    r := Ok(out);
  }

  /** The `html` property: the rendered script placed in the page template, or the rendering error. */
  function Document(url: string, options: string, page: Result<string>): (r: Result<string>)
    ensures r.Err? <==> page.Err?
    ensures r.Err? ==> r.error == page.error
    ensures page.Ok? ==> r == Ok(HtmlFmt(url, page.value, options))
  {
    match page
    case Err(e) => Err(e)
    case Ok(exp) => Ok(HtmlFmt(url, exp, options))
  }

  /**
   * Appending a renderable statement appends exactly one block, whose id is
   * the statement's index, before the substitutions are applied.
   */
  lemma PageAppend(engine: Engine, ns: seq<Node>, n: Node, subs: seq<Substitution>)
    requires Texts(engine, ns).Ok? && !Unrenderable(n)
    ensures var ts := Texts(engine, ns).value;
            var t := StatementText(engine, n).value;
            Page(engine, ns + [n], subs)
              == Ok(Substitute(Script(Quote(engine, ts)) + (if ns == [] then "" else "\n") + LatexFmt(|ns|, engine.repr(t)), subs))
  {
    var ts := Texts(engine, ns).value;
    var t := StatementText(engine, n).value;
    var m := ns + [n];
    assert m[..|ns|] == ns;
    assert Texts(engine, m) == Ok(ts + [t]);
    assert Quote(engine, ts + [t]) == Quote(engine, ts) + [engine.repr(t)];
    ScriptAppend(Quote(engine, ts), engine.repr(t));
  }

  /** The text of one captured coordinate: its LaTeX with every backslash doubled. */
  function CoordinateText(engine: Engine, x: Value): string {
    Escape(engine.latex(Ref(x)))
  }

  /** The LaTeX of each coordinate, in order. */
  function CoordinateLatex(engine: Engine, coords: seq<Value>): (r: seq<string>)
    ensures |r| == |coords| && forall i :: 0 <= i < |coords| ==> r[i] == engine.latex(Ref(coords[i]))
  {
    seq(|coords|, i requires 0 <= i < |coords| => engine.latex(Ref(coords[i])))
  }

  /**
   * `point`'s captured text: "(" + the coordinate texts joined by ", " + ")".
   * Undoing the backslash doubling inside the parentheses gives the
   * coordinates' LaTeX joined by ", ".
   */
  function PointText(engine: Engine, coords: seq<Value>): (r: string)
    ensures |r| >= 2 && r[0] == '(' && r[|r| - 1] == ')'
    ensures r == "(" + Escape(Join(", ", CoordinateLatex(engine, coords))) + ")"
    ensures Unescape(r[1..|r| - 1]) == Join(", ", CoordinateLatex(engine, coords))
  {
    var parts := seq(|coords|, i requires 0 <= i < |coords| => CoordinateText(engine, coords[i]));
    var r := "(" + Join(", ", parts) + ")";
    assert Escape(", ") == ", " by {
      AbsentFirstCharacter(", ", "\\");
      ReplaceAbsent(", ", "\\", "\\\\");
    }
    EscapeJoin(", ", CoordinateLatex(engine, coords), parts);
    EscapeRoundTrip(Join(", ", CoordinateLatex(engine, coords)));
    assert r[1..|r| - 1] == Join(", ", parts);
    r
  }

  /** A point of one coordinate captures that coordinate's text in parentheses. */
  lemma PointOfOne(engine: Engine, x: Value)
    ensures PointText(engine, [x]) == "(" + CoordinateText(engine, x) + ")"
  {
    var parts := seq(1, i requires 0 <= i < 1 => CoordinateText(engine, [x][i]));
    assert parts == [CoordinateText(engine, x)];
  }

  /**
   * The substitution registry is numbered from `from` on: entry k holds the
   * token with counter k, and the entries before `from` are not tokens.
   */
  ghost predicate Numbered(subs: seq<Substitution>, from: nat) {
    && from <= |subs|
    && (forall k :: 0 <= k < from ==> TokenNumber(subs[k].token).None?)
    && (forall k :: from <= k < |subs| ==> subs[k].token == Token(k))
  }

  /** The next token, numbered by the registry's size, is not yet registered. */
  lemma NextTokenFresh(subs: seq<Substitution>, from: nat)
    requires Numbered(subs, from)
    ensures !Registered(subs, Token(|subs|))
  {
    TokenRoundTrip(|subs|);
    forall k | 0 <= k < |subs|
      ensures subs[k].token != Token(|subs|)
    {
      if k >= from {
        TokenInjective(k, |subs|);
      }
    }
  }

  /** Capturing text grows the registry by exactly one fresh, correctly numbered entry. */
  lemma CaptureAppends(subs: seq<Substitution>, from: nat, text: string)
    requires Numbered(subs, from)
    ensures Store(subs, Token(|subs|), text) == subs + [Substitution(Token(|subs|), text)]
    ensures Numbered(subs + [Substitution(Token(|subs|), text)], from)
  {
    NextTokenFresh(subs, from);
    StoreFresh(subs, Token(|subs|), text);
    NumberedAppend(subs, from, Substitution(Token(|subs|), text));
  }

  /** Appending the entry numbered by its own position keeps the registry numbered. */
  lemma NumberedAppend(subs: seq<Substitution>, from: nat, e: Substitution)
    requires Numbered(subs, from) && e.token == Token(|subs|)
    ensures Numbered(subs + [e], from)
  {
    var grown := subs + [e];
    forall k | 0 <= k < from
      ensures TokenNumber(grown[k].token).None?
    {
      assert grown[k] == subs[k];
    }
    forall k | from <= k < |grown|
      ensures grown[k].token == Token(k)
    {
      if k < |subs| {
        assert grown[k] == subs[k];
      }
    }
  }

  const DefaultUrlFormat := "https://www.desmos.com/api/%(rev)s/calculator.js?apiKey=%(key)s"
  const DefaultRev := "v1.9"
  const DefaultKey := "dcb31709b452b1cf9dc26972add0fda6"

  function Get(m: map<string, string>, k: string, default: string): string {
    if k in m then m[k] else default
  }

  /** An explicit, non-empty `url` argument. */
  predicate HasUrl(kwargs: map<string, string>) {
    "url" in kwargs && kwargs["url"] != ""
  }

  /**
   * `url_from_kwargs`: the options left for the plotting surface and the
   * library URL. `format` stands for Python's `%` applied to the format, the
   * revision and the key.
   */
  function UrlFromKwargs(kwargs: map<string, string>, format: (string, string, string) -> string)
    : (r: (map<string, string>, string))
    ensures "url" !in r.0
    ensures forall k :: k in r.0 ==> k in kwargs && r.0[k] == kwargs[k]
    ensures HasUrl(kwargs) ==> r.0.Keys == kwargs.Keys - {"url"} && r.1 == kwargs["url"]
    ensures !HasUrl(kwargs) ==>
      && r.0.Keys == kwargs.Keys - {"url", "url_fmt", "rev", "key"}
      && r.1 == format(Get(kwargs, "url_fmt", DefaultUrlFormat), Get(kwargs, "rev", DefaultRev), Get(kwargs, "key", DefaultKey))
  {
    if HasUrl(kwargs) then (kwargs - {"url"}, kwargs["url"])
    else
      (kwargs - {"url", "url_fmt", "rev", "key"},
       format(Get(kwargs, "url_fmt", DefaultUrlFormat), Get(kwargs, "rev", DefaultRev), Get(kwargs, "key", DefaultKey)))
  }
}

=== FILE: statements.dfy ===
/**
 * The Statement wrapper: one engine term, optionally tagged with the name of
 * the bound variable it stands for. Every operator builds a new Statement and
 * never changes its operands; Statements are never mutated once returned, so
 * the model treats them as values.
 */
module Statements {
  import opened Errors
  import opened Terms

  datatype Statement = Statement(name: Option<string>, expr: Term)

  /** A host value handed to the DSL: a Statement, or a raw engine value (a literal or a term). */
  datatype Value = Stmt(s: Statement) | Raw(t: Term)

  /** What a calculator attribute lookup yields: the cache holds Statements,
      raw engine symbols and function wrappers; engine names yield engine objects. */
  datatype Handle =
    | HStmt(s: Statement)
    | HRaw(t: Term)
    | HFunction(target: string)  // the indirect-call wrapper of a defined function
    | HEngine(name: string)      // an attribute of the engine module, such as `sin`

  /** `Statement(name)`: a bound variable. */
  function Symbol(name: string): (r: Statement)
    ensures r.name == Some(name) && r.expr == Sym(name)
    ensures forall v :: Eval(r.expr, v) == v.symbol(name)
  {
    Statement(Some(name), Sym(name))
  }

  /** `Statement.ref`: a Statement contributes its term, anything else is passed through as itself. */
  function Ref(v: Value): (r: Term)
    ensures v.Stmt? ==> r == v.s.expr
    ensures v.Raw? ==> r == v.t
  {
    match v
    case Stmt(s) => s.expr
    case Raw(t) => t
  }

  /** `Statement.from_value`: a Statement is returned as is, anything else is wrapped. */
  function FromValue(v: Value): (s: Statement)
    ensures Ref(Stmt(s)) == Ref(v)
    ensures v.Stmt? ==> s == v.s
    ensures v.Raw? ==> s.name == None
  {
    match v
    case Stmt(s) => s
    case Raw(t) => Statement(None, t)
  }

  /** The term a handle contributes when it is used as an operand. */
  function HandleTerm(h: Handle): Term {
    match h
    case HStmt(s) => s.expr
    case HRaw(t) => t
    case HFunction(target) => Opaque(target)
    case HEngine(name) => Opaque(name)
  }

  /**
   * `__add__`, `__sub__`, `__mul__`, `__truediv__`, `__pow__` and, with
   * `reflected`, their `__r…__` forms, where the other operand comes first.
   */
  function Operate(op: BinOp, s: Statement, other: Value, reflected: bool): (r: Statement)
    ensures r.name == None
  {
    var t := Ref(other);
    Statement(None, if reflected then Bin(op, t, s.expr) else Bin(op, s.expr, t))
  }

  /** `__neg__` (only the packaged module defines it). */
  function Negate(s: Statement): (r: Statement)
    ensures r.name == None
    ensures forall v :: Eval(r.expr, v) == -Eval(s.expr, v)
  {
    Statement(None, Neg(s.expr))
  }

  /** `Calculator.abs`: a new Statement over the absolute value of the operand. */
  function AbsOf(x: Value): (r: Statement)
    ensures r.name == None
    ensures forall v :: Eval(r.expr, v) >= 0.0
    ensures forall v :: Eval(r.expr, v) == Eval(Ref(x), v) || Eval(r.expr, v) == -Eval(Ref(x), v)
  {
    Statement(None, Abs(Ref(x)))
  }

  /** The arithmetic operators mean what they say, with the operands in source order. */
  lemma OperateEvaluates(op: BinOp, s: Statement, other: Value, reflected: bool, v: Valuation)
    requires op != Power
    requires op == Divide ==> (if reflected then Eval(s.expr, v) else Eval(Ref(other), v)) != 0.0
    ensures var x, y := Eval(s.expr, v), Eval(Ref(other), v);
            Eval(Operate(op, s, other, reflected).expr, v) == if reflected then Arith(op, y, x) else Arith(op, x, y)
  {
  }

  /** `(a + b) - b` evaluates to `a`. */
  lemma SumThenDifference(a: Statement, b: Value, v: Valuation)
    ensures Eval(Operate(Minus, Operate(Plus, a, b, false), b, false).expr, v) == Eval(a.expr, v)
  {
  }
}

=== FILE: terms.dfy ===
/**
 * Values of the external symbolic engine, kept uninterpreted: the model builds
 * terms but never simplifies or canonicalises them. `Eval` gives the algebraic
 * constructs their meaning over the reals so that the sign of a lump can be
 * related to the truth of the comparison it encodes; everything the model
 * does not interpret (powers, function applications, relations, engine
 * objects, a division by zero, an empty Min or Max) is read from the
 * valuation's `other` component.
 */
module Terms {

  /** The relation of a comparison node, one per Inequality subclass. */
  datatype Order = LessThan | LessEqual | GreaterThan | GreaterEqual

  /** The binary arithmetic operators overloaded on Statement. */
  datatype BinOp = Plus | Minus | Times | Divide | Power

  datatype Term =
    | Sym(name: string)                       // an engine symbol
    | Num(value: real)                        // a numeric literal
    | Bin(op: BinOp, left: Term, right: Term)
    | Neg(arg: Term)
    | Abs(arg: Term)
    | Min(args: seq<Term>)
    | Max(args: seq<Term>)
    | Prod(args: seq<Term>)                   // the engine's n-ary product
    | Eq(lhs: Term, rhs: Term)                // an unevaluated equation
    | Rel(order: Order, lhs: Term, rhs: Term) // an unevaluated inequality
    | Fn(name: string, texts: seq<string>)    // a function applied to argument texts
    | Opaque(name: string)                    // a host object handed to the engine as is

  /** An assignment of reals to symbols, and to every term the model leaves uninterpreted. */
  datatype Valuation = Valuation(symbol: string -> real, other: Term -> real)

  /** `x` clears zero: strictly when `strict`, otherwise with equality allowed. */
  predicate AboveZero(x: real, strict: bool) {
    if strict then x > 0.0 else x >= 0.0
  }

  /** The truth of `x order y` over the reals. */
  predicate OrderHolds(order: Order, x: real, y: real) {
    match order
    case LessThan => x < y
    case LessEqual => x <= y
    case GreaterThan => x > y
    case GreaterEqual => x >= y
  }

  /** Plus, Minus, Times and a division by a non-zero divisor over the reals. */
  function Arith(op: BinOp, x: real, y: real): real
    requires op != Power && (op == Divide ==> y != 0.0)
  {
    match op
    case Plus => x + y
    case Minus => x - y
    case Times => x * y
    case Divide => x / y
  }

  function Eval(t: Term, v: Valuation): real {
    match t
    case Sym(n) => v.symbol(n)
    case Num(x) => x
    case Bin(op, a, b) =>
      var x, y := Eval(a, v), Eval(b, v);
      if op == Power || (op == Divide && y == 0.0) then v.other(t) else Arith(op, x, y)
    case Neg(a) => -Eval(a, v)
    case Abs(a) => var x := Eval(a, v); if x < 0.0 then -x else x
    case Min(s) => if s == [] then v.other(t) else Least(seq(|s|, i requires 0 <= i < |s| => Eval(s[i], v)))
    case Max(s) => if s == [] then v.other(t) else Greatest(seq(|s|, i requires 0 <= i < |s| => Eval(s[i], v)))
    case Prod(s) => Product(seq(|s|, i requires 0 <= i < |s| => Eval(s[i], v)))
    case Eq(_, _) => v.other(t)
    case Rel(_, _, _) => v.other(t)
    case Fn(_, _) => v.other(t)
    case Opaque(_) => v.other(t)
  }

  /** The values of a list of terms, in order. */
  function Values(s: seq<Term>, v: Valuation): (r: seq<real>)
    ensures |r| == |s|
    ensures forall i :: 0 <= i < |s| ==> r[i] == Eval(s[i], v)
  {
    seq(|s|, i requires 0 <= i < |s| => Eval(s[i], v))
  }

  /** Min, Max and Prod evaluate through the values of their arguments. */
  lemma EvalLists(s: seq<Term>, v: Valuation)
    ensures s != [] ==> Eval(Min(s), v) == Least(Values(s, v)) && Eval(Max(s), v) == Greatest(Values(s, v))
    ensures Eval(Prod(s), v) == Product(Values(s, v))
  {
    var xs := seq(|s|, i requires 0 <= i < |s| => Eval(s[i], v));
    assert xs == Values(s, v);
  }

  function Least(xs: seq<real>): real
    requires xs != []
  {
    if |xs| == 1 then xs[0]
    else var m := Least(xs[1..]); if xs[0] <= m then xs[0] else m
  }

  function Greatest(xs: seq<real>): real
    requires xs != []
  {
    if |xs| == 1 then xs[0]
    else var m := Greatest(xs[1..]); if xs[0] >= m then xs[0] else m
  }

  /** The empty product is 1, as the engine's `Mul()` is. */
  function Product(xs: seq<real>): real {
    if xs == [] then 1.0 else xs[0] * Product(xs[1..])
  }

  /** The minimum clears zero exactly when every element does. */
  lemma {:induction false} LeastAboveZero(xs: seq<real>, strict: bool)
    requires xs != []
    ensures AboveZero(Least(xs), strict) <==> forall i :: 0 <= i < |xs| ==> AboveZero(xs[i], strict)
  {
    if |xs| > 1 {
      LeastAboveZero(xs[1..], strict);
      assert forall i :: 1 <= i < |xs| ==> xs[i] == xs[1..][i - 1];
    }
  }

  /** The maximum clears zero exactly when some element does. */
  lemma {:induction false} GreatestAboveZero(xs: seq<real>, strict: bool)
    requires xs != []
    ensures AboveZero(Greatest(xs), strict) <==> exists i :: 0 <= i < |xs| && AboveZero(xs[i], strict)
  {
    if |xs| > 1 {
      GreatestAboveZero(xs[1..], strict);
      assert forall i :: 1 <= i < |xs| ==> xs[i] == xs[1..][i - 1];
      if AboveZero(Greatest(xs[1..]), strict) {
        var j :| 0 <= j < |xs[1..]| && AboveZero(xs[1..][j], strict);
        assert AboveZero(xs[j + 1], strict);
      }
    }
  }
}

=== FILE: text.dfy ===
/**
 * The string handling of the calculator: decimal numbers, the `%04d`
 * placeholder tokens, Python's `str.replace` and `str.join`, an
 * insertion-ordered dictionary of substitutions, and the per-statement
 * script template.
 */
module Text {
  import opened Errors

  predicate IsDigit(c: char) {
    '0' <= c <= '9'
  }

  predicate AllDigits(s: string) {
    forall i :: 0 <= i < |s| ==> IsDigit(s[i])
  }

  function DigitValue(c: char): nat
    requires IsDigit(c)
  {
    c as int - '0' as int
  }

  function DigitChar(d: nat): (c: char)
    requires d < 10
    ensures IsDigit(c) && DigitValue(c) == d
  {
    ('0' as int + d) as char
  }

  /** The value of a string of decimal digits; leading zeros are allowed. */
  function DecimalValue(s: string): nat
    requires AllDigits(s)
    decreases |s|
  {
    if s == [] then 0 else DecimalValue(s[..|s| - 1]) * 10 + DigitValue(s[|s| - 1])
  }

  /** `str(n)` for a natural number: its decimal digits, without leading zeros. */
  function Digits(n: nat): (s: string)
    ensures |s| >= 1 && AllDigits(s)
    ensures |s| > 1 ==> s[0] != '0'
  {
    if n < 10 then [DigitChar(n)] else Digits(n / 10) + [DigitChar(n % 10)]
  }

  lemma {:induction false} DigitsRoundTrip(n: nat)
    ensures DecimalValue(Digits(n)) == n
  {
    if n >= 10 {
      DigitsRoundTrip(n / 10);
      var s := Digits(n);
      assert s[..|s| - 1] == Digits(n / 10);
    }
  }

  function Zeros(k: nat): (s: string)
    ensures |s| == k && AllDigits(s)
  {
    if k == 0 then [] else "0" + Zeros(k - 1)
  }

  lemma {:induction false} LeadingZeroIgnored(s: string)
    requires AllDigits(s)
    ensures AllDigits("0" + s) && DecimalValue("0" + s) == DecimalValue(s)
    decreases |s|
  {
    if s != [] {
      var p := s[..|s| - 1];
      LeadingZeroIgnored(p);
      assert ("0" + s)[..|s|] == "0" + p;
    }
  }

  lemma {:induction false} LeadingZerosIgnored(k: nat, s: string)
    requires AllDigits(s)
    ensures DecimalValue(Zeros(k) + s) == DecimalValue(s)
  {
    if k > 0 {
      LeadingZerosIgnored(k - 1, s);
      assert AllDigits(Zeros(k - 1) + s);
      assert Zeros(k) + s == "0" + (Zeros(k - 1) + s);
      LeadingZeroIgnored(Zeros(k - 1) + s);
    } else {
      assert Zeros(k) + s == s;
    }
  }

  /** `'%04d' % n`: the digits of `n`, zero-padded to at least four characters. */
  function Counter(n: nat): (s: string)
    ensures |s| >= 4 && AllDigits(s)
    ensures |s| == if |Digits(n)| >= 4 then |Digits(n)| else 4
    ensures DecimalValue(s) == n
  {
    var d := Digits(n);
    DigitsRoundTrip(n);
    if |d| >= 4 then d
    else
      LeadingZerosIgnored(4 - |d|, d);
      Zeros(4 - |d|) + d
  }

  const TokenPrefix := "v_{custom"

  /** The placeholder symbol `'v_{custom%04d}' % n`. */
  function Token(n: nat): string {
    TokenPrefix + Counter(n) + "}"
  }

  /** The counter a placeholder token carries; `None` for any other string. */
  function TokenNumber(t: string): Option<nat> {
    var p := |TokenPrefix|;
    if |t| > p + 1 && t[..p] == TokenPrefix && t[|t| - 1] == '}' && AllDigits(t[p..|t| - 1])
    then Some(DecimalValue(t[p..|t| - 1]))
    else None
  }

  /** The counter can be read back from its placeholder token. */
  lemma TokenRoundTrip(n: nat)
    ensures TokenNumber(Token(n)) == Some(n)
  {
    var t, c := Token(n), Counter(n);
    assert t[..|TokenPrefix|] == TokenPrefix;
    assert t[|TokenPrefix|..|t| - 1] == c;
  }

  /** Distinct counters give distinct tokens. */
  lemma TokenInjective(m: nat, n: nat)
    ensures Token(m) == Token(n) <==> m == n
  {
    TokenRoundTrip(m);
    TokenRoundTrip(n);
  }

  /**
   * Python's `str.replace`: every non-overlapping occurrence of `key`,
   * scanning left to right, becomes `by`; an empty key inserts `by` around
   * every character.
   */
  function Replace(s: string, key: string, sub: string): (r: string)
    ensures key == sub ==> r == s
    ensures |key| == |sub| ==> |r| == |s|
    decreases |s|
  {
    if key == [] then (if s == [] then sub else sub + [s[0]] + Replace(s[1..], key, sub))
    else if |s| < |key| then s
    else if s[..|key|] == key then sub + Replace(s[|key|..], key, sub)
    else [s[0]] + Replace(s[1..], key, sub)
  }

  /** `key` occurs in `s`. */
  predicate Occurs(s: string, key: string)
    decreases |s|
  {
    |s| >= |key| && (s[..|key|] == key || Occurs(s[1..], key))
  }

  /** A key whose first character is absent from the text does not occur in it. */
  lemma {:induction false} AbsentFirstCharacter(s: string, key: string)
    requires key != [] && key[0] !in s
    ensures !Occurs(s, key)
    decreases |s|
  {
    if |s| >= |key| {
      assert s[..|key|][0] == s[0] != key[0];
      AbsentFirstCharacter(s[1..], key);
    }
  }

  /** A leading character that cannot start the key does not change whether it occurs. */
  lemma OccursPastFirst(c: char, s: string, key: string)
    requires key != [] && c != key[0]
    ensures Occurs([c] + s, key) == Occurs(s, key)
  {
    assert ([c] + s)[1..] == s;
    if |[c] + s| >= |key| {
      assert ([c] + s)[..|key|][0] == c;
    }
  }

  /** Replacing a key that does not occur changes nothing. */
  lemma {:induction false} ReplaceAbsent(s: string, key: string, sub: string)
    requires key != [] && !Occurs(s, key)
    ensures Replace(s, key, sub) == s
    decreases |s|
  {
    if |s| >= |key| {
      ReplaceAbsent(s[1..], key, sub);
    }
  }

  /** A key at the front of the text is replaced there. */
  lemma ReplaceLeading(key: string, rest: string, sub: string)
    requires key != []
    ensures Replace(key + rest, key, sub) == sub + Replace(rest, key, sub)
  {
    assert (key + rest)[..|key|] == key;
    assert (key + rest)[|key|..] == rest;
  }

  /** A text that is the key itself becomes the substitute. */
  lemma ReplaceWhole(key: string, sub: string)
    requires key != []
    ensures Replace(key, key, sub) == sub
  {
    ReplaceLeading(key, "", sub);
    assert key + "" == key && sub + "" == sub;
  }

  /** A key right after a character that cannot start it is replaced there. */
  lemma ReplaceAfter(c: char, key: string, rest: string, sub: string)
    requires key != [] && c != key[0]
    ensures Replace([c] + key + rest, key, sub) == [c] + sub + Replace(rest, key, sub)
  {
    var s := [c] + key + rest;
    assert s[..|key|][0] == c;
    assert s[1..] == key + rest;
    ReplaceLeading(key, rest, sub);
  }

  /** `s.replace('\\', '\\\\')`: every backslash doubled. */
  function Escape(s: string): string {
    Replace(s, "\\", "\\\\")
  }

  /** A text without backslashes is its own escape. */
  lemma EscapeFree(s: string)
    requires '\\' !in s
    ensures Escape(s) == s
  {
    AbsentFirstCharacter(s, "\\");
    ReplaceAbsent(s, "\\", "\\\\");
  }

  /** Halves every doubled backslash; the inverse of `Escape`. */
  function Unescape(s: string): string {
    if s == [] then []
    else if |s| >= 2 && s[0] == '\\' && s[1] == '\\' then "\\" + Unescape(s[2..])
    else [s[0]] + Unescape(s[1..])
  }

  /** Halving the doubled backslashes gives the text back. */
  lemma {:induction false} EscapeRoundTrip(s: string)
    ensures Unescape(Escape(s)) == s
  {
    if s != [] {
      var rest := Replace(s[1..], "\\", "\\\\");
      EscapeRoundTrip(s[1..]);
      if s[0] == '\\' {
        assert s[..1] == "\\";
        assert ("\\\\" + rest)[2..] == rest;
      } else {
        assert s[..1] != "\\";
        assert Replace(s, "\\", "\\\\") == [s[0]] + rest;
      }
    }
  }

  /** Doubling backslashes works character by character, so it distributes over concatenation. */
  lemma {:induction false} EscapeAppend(a: string, b: string)
    ensures Escape(a + b) == Escape(a) + Escape(b)
    decreases |a|
  {
    if a == [] {
      assert a + b == b;
    } else {
      EscapeAppend(a[1..], b);
      assert (a + b)[1..] == a[1..] + b;
      assert (a + b)[..1] == a[..1];
    }
  }

  /** Python's `sep.join(parts)`. */
  function Join(sep: string, parts: seq<string>): string
    decreases |parts|
  {
    if parts == [] then ""
    else if |parts| == 1 then parts[0]
    else Join(sep, parts[..|parts| - 1]) + sep + parts[|parts| - 1]
  }

  /**
   * A join is empty for no parts and the part itself for one; otherwise it
   * starts with the first part, ends with the last, and each further part
   * adds the separator and itself.
   */
  lemma {:induction false} JoinShape(sep: string, parts: seq<string>)
    ensures parts == [] ==> Join(sep, parts) == ""
    ensures |parts| == 1 ==> Join(sep, parts) == parts[0]
    ensures |parts| > 0 ==> parts[0] <= Join(sep, parts)
    ensures |parts| > 1 ==> Join(sep, parts) == Join(sep, parts[..|parts| - 1]) + sep + parts[|parts| - 1]
    decreases |parts|
  {
    if |parts| > 1 {
      var n := |parts| - 1;
      JoinShape(sep, parts[..n]);
      assert parts[..n][0] == parts[0];
      var j := Join(sep, parts[..n]);
      assert (j + sep + parts[n])[..|j|] == j;
    }
  }

  /** Joining texts with a separator free of backslashes commutes with escaping them. */
  lemma {:induction false} EscapeJoin(sep: string, parts: seq<string>, escaped: seq<string>)
    requires Escape(sep) == sep
    requires |escaped| == |parts| && forall i :: 0 <= i < |parts| ==> escaped[i] == Escape(parts[i])
    ensures Join(sep, escaped) == Escape(Join(sep, parts))
    decreases |parts|
  {
    var n := |parts| - 1;
    if |parts| > 1 {
      EscapeJoin(sep, parts[..n], escaped[..n]);
      EscapeAppend(Join(sep, parts[..n]), sep);
      EscapeAppend(Join(sep, parts[..n]) + sep, parts[n]);
    }
  }

  /** One entry of the substitution dictionary. */
  datatype Substitution = Substitution(token: string, text: string)

  predicate Registered(subs: seq<Substitution>, token: string) {
    exists i :: 0 <= i < |subs| && subs[i].token == token
  }

  /** `subs[token] = text` on an insertion-ordered dictionary: an existing key keeps its place. */
  function Store(subs: seq<Substitution>, token: string, text: string): (r: seq<Substitution>)
    ensures |r| == if Registered(subs, token) then |subs| else |subs| + 1
  {
    if subs == [] then [Substitution(token, text)]
    else if subs[0].token == token then [Substitution(token, text)] + subs[1..]
    else
      assert Registered(subs, token) <==> Registered(subs[1..], token) by {
        if Registered(subs, token) {
          var i :| 0 <= i < |subs| && subs[i].token == token;
          assert subs[1..][i - 1].token == token;
        }
      }
      [subs[0]] + Store(subs[1..], token, text)
  }

  /** Storing an unregistered key appends one entry at the end. */
  lemma {:induction false} StoreFresh(subs: seq<Substitution>, token: string, text: string)
    requires !Registered(subs, token)
    ensures Store(subs, token, text) == subs + [Substitution(token, text)]
  {
    if subs != [] {
      StoreFresh(subs[1..], token, text);
      assert subs == [subs[0]] + subs[1..];
    }
  }

  /** The rendering-time replacement: each key in insertion order, applied to the whole text. */
  function Substitute(s: string, subs: seq<Substitution>): string
    decreases |subs|
  {
    if subs == [] then s else Substitute(Replace(s, subs[0].token, subs[0].text), subs[1..])
  }

  /**
   * Entries that map a key to itself change nothing, and entries whose texts
   * are as long as their keys keep the text's length.
   */
  lemma {:induction false} SubstituteNeutral(s: string, subs: seq<Substitution>)
    ensures (forall i :: 0 <= i < |subs| ==> subs[i].token == subs[i].text) ==> Substitute(s, subs) == s
    ensures (forall i :: 0 <= i < |subs| ==> |subs[i].token| == |subs[i].text|) ==> |Substitute(s, subs)| == |s|
    decreases |subs|
  {
    if subs != [] {
      SubstituteNeutral(Replace(s, subs[0].token, subs[0].text), subs[1..]);
      assert forall i :: 0 <= i < |subs| - 1 ==> subs[1..][i] == subs[i + 1];
    }
  }

  /** A later entry is replaced after every earlier one. */
  lemma {:induction false} SubstituteAppend(s: string, subs: seq<Substitution>, e: Substitution)
    ensures Substitute(s, subs + [e]) == Replace(Substitute(s, subs), e.token, e.text)
    decreases |subs|
  {
    if subs == [] {
      assert Substitute(s, [e]) == Substitute(Replace(s, e.token, e.text), []);
    } else {
      var t := Replace(s, subs[0].token, subs[0].text);
      assert (subs + [e])[1..] == subs[1..] + [e];
      SubstituteAppend(t, subs[1..], e);
    }
  }

  /**
   * The replacement order under which a captured text is itself rendered:
   * the latest entry first, then each earlier one, so the placeholders an
   * entry's text mentions are replaced by the entries registered before it.
   */
  function SubstituteLatestFirst(s: string, subs: seq<Substitution>): string
    decreases |subs|
  {
    if subs == [] then s
    else var n := |subs| - 1; SubstituteLatestFirst(Replace(s, subs[n].token, subs[n].text), subs[..n])
  }

  /**
   * Under the latest-first order an appended entry's text passes through
   * every earlier entry, where under `Substitute` it passes through none.
   */
  lemma LatestFirstPair(s: string, a: Substitution, b: Substitution)
    ensures SubstituteLatestFirst(s, [a, b]) == Replace(Replace(s, b.token, b.text), a.token, a.text)
  {
    var once := Replace(s, b.token, b.text);
    assert [a, b][..1] == [a] && [a][..0] == [];
    assert SubstituteLatestFirst(s, [a, b]) == SubstituteLatestFirst(once, [a]);
    assert SubstituteLatestFirst(once, [a]) == SubstituteLatestFirst(Replace(once, a.token, a.text), []);
  }

  lemma LatestFirstAppend(s: string, subs: seq<Substitution>, e: Substitution)
    ensures SubstituteLatestFirst(s, subs + [e]) == SubstituteLatestFirst(Replace(s, e.token, e.text), subs)
  {
    assert (subs + [e])[..|subs|] == subs;
  }

  /** The fixed text of the `latex_fmt` template, around its two slots. */
  const BlockHead := "calculator.setExpression({\n\t\tlatex: "
  const BlockAfterExp := ",\n\t\tid: '"
  const BlockTail := "',\n\t});\n"

  /**
   * The `latex_fmt` template: one `calculator.setExpression` call carrying the
   * expression after the fixed head and the statement's id just before the
   * fixed tail.
   */
  function LatexFmt(id: nat, exp: string): string {
    BlockHead + exp + BlockAfterExp + Digits(id) + BlockTail
  }

  /** The expression and the id can be read back from their places in a block. */
  lemma BlockSlots(id: nat, exp: string)
    ensures var r := LatexFmt(id, exp);
      && |r| == |BlockHead| + |exp| + |BlockAfterExp| + |Digits(id)| + |BlockTail|
      && r[..|BlockHead|] == BlockHead && r[|BlockHead|..|BlockHead| + |exp|] == exp
      && r[|r| - |BlockTail| - |Digits(id)|..|r| - |BlockTail|] == Digits(id)
  {
    var r := LatexFmt(id, exp);
    assert r == BlockHead + (exp + (BlockAfterExp + (Digits(id) + BlockTail)));
  }

  /** One `latex_fmt` block per quoted statement text; block i carries id i. */
  function Blocks(quoted: seq<string>): (r: seq<string>)
    ensures |r| == |quoted|
    ensures forall i :: 0 <= i < |quoted| ==> r[i] == LatexFmt(i, quoted[i])
  {
    if quoted == [] then []
    else Blocks(quoted[..|quoted| - 1]) + [LatexFmt(|quoted| - 1, quoted[|quoted| - 1])]
  }

  /** `'\n'.join` of the blocks. */
  function Script(quoted: seq<string>): string {
    Join("\n", Blocks(quoted))
  }

  /** One more statement adds exactly one block, at the end, with the next id. */
  lemma ScriptAppend(quoted: seq<string>, x: string)
    ensures Script(quoted + [x]) == Script(quoted) + (if quoted == [] then "" else "\n") + LatexFmt(|quoted|, x)
  {
    var q := quoted + [x];
    assert q[..|q| - 1] == quoted;
    var b := Blocks(q);
    assert b[..|b| - 1] == Blocks(quoted);
  }

  /** The fixed text of the `html_fmt` page template, between its three slots. */
  const PageHead := "\n<body style=\"background-color:#2A2A2A;\" marginwidth=\"0px\" marginheight=\"0px\">\n<script src=\""
  const PageAfterUrl := "\"></script>\n<div id=\"calculator\"></div>\n<script>\n\tvar elt = document.getElementById(\"calculator\");\n\tvar calculator = Desmos.GraphingCalculator(elt, options="
  const PageAfterOptions := ");\n\t"
  const PageTail := "\n</script>\n"

  /**
   * The `html_fmt` page template: the library URL after the fixed head, the
   * options text after the calculator's construction, and the script just
   * before the fixed tail.
   */
  function HtmlFmt(url: string, exp: string, opt: string): string {
    PageHead + url + PageAfterUrl + opt + PageAfterOptions + exp + PageTail
  }

  /** The URL, the options text and the script can be read back from their places in the page. */
  lemma PageSlots(url: string, exp: string, opt: string)
    ensures var r, o := HtmlFmt(url, exp, opt), |PageHead| + |url| + |PageAfterUrl|;
      && |r| == o + |opt| + |PageAfterOptions| + |exp| + |PageTail|
      && r[|PageHead|..|PageHead| + |url|] == url
      && r[o..o + |opt|] == opt
      && r[|r| - |PageTail| - |exp|..|r| - |PageTail|] == exp
  {
    var head := PageHead + url + PageAfterUrl;
    var r := HtmlFmt(url, exp, opt);
    assert head[|PageHead|..|PageHead| + |url|] == url;
    assert r == head + (opt + (PageAfterOptions + (exp + PageTail)));
  }
}
